=== FILE: README.md ===
# Duplicate-file finder and hardlink consolidator, modelled in Dafny

The repository holds two versions of one command-line tool.

- **deduplicator.py**, the current version, reads file names from standard input. It finds groups of byte-identical files by narrowing candidates in three stages: same size, then the same quick hash of the first block, then the same full hash. A candidate group whose files all share one `(st_ino, st_dev)` is never hashed; otherwise only the first listed file of each inode is. It can replace every duplicate with a hard link to one survivor.
- **dupes2.py**, the older version, does the same with different edge cases. Its inode short-circuit keys on `st_ino` alone. It keeps empty files. Its survivor tie-break picks the last most-linked file. Its `hardlink` returns a bool.

The model is functional.

- A file record is `FileInfo(path, Stat(dev, ino, nlink, size, regular))`.
- `os.stat` is an oracle from paths to `Option<Stat>`, where `None` means `OSError`. Each hash function is an oracle from paths to `Option<Digest>`, where `None` means `IOError`.
- Python's insertion-ordered `dict` is an association list built by the same insertion fold (`Grouping.GroupBy`). It is proved equal to a reference partition: the distinct keys in order of first appearance, each with its items in input order.
- A hash stage returns its groups together with the trace of records it hashed. The contracts can therefore say how often the hash function is called, and on which file.
- The filesystem is a map from path to storage identity, plus the set of calls the environment refuses. `rename`, `link` and `unlink` fail on a call in that set, on a missing source, and (`link` only) on an existing target.

Modules and files:

| file | module | what it holds |
|---|---|---|
| common.dfy | `Common` | `Option`, `Result`, bytes, paths, digests |
| seqs.dfy | `Seqs` | `Flatten` and facts about nested sequences |
| files.dfy | `Files` | the file record, the oracles, the grouping keys |
| grouping.dfy | `Grouping` | `group_by`, `filter_solo`, `group_compose` |
| hashgrouping.dfy | `HashGrouping` | the hash stage both versions share, generic in the class key |
| pipeline.dfy | `Pipeline` | deduplicator.py: `stat_files`, `group_by_size`, `group_by_hash`, `deduplicate` |
| filesystem.dfy | `FileSystem` | the path namespace and the rename, link, unlink replacement |
| consolidate.dfy | `Consolidate` | deduplicator.py: `hardlink`, `make_hardlinks_within_device`, `make_hardlinks` |
| tokens.dfy | `Tokens` | `bytes.split`, `bytes.join`, dropping empty tokens |
| reader.dfy | `Reader` | deduplicator.py: `read_filenames` |
| dupes2.dfy | `Dupes` | dupes2.py: the whole pipeline, `hardlink`, `make_hardlinks`, the top-level loop |

As written, the first step of a replacement renames the target over any file already called `<target>.bak`. Storage reachable only through that name is then gone (`FileSystem.ExistingBackupOverwritten`). deduplicator.py drops empty files (deduplicator.py:71); dupes2.py keeps them (`Dupes.EmptyFilesKept`).

## Model

| member | source | states |
|---|---|---|
| Grouping.KeysOf | deduplicator.py:78-83 | the keys of a `group_by` dict: no key twice, and every item's key among them |
| Grouping.SelectMember | deduplicator.py:78-83 | an item is in the list of key `k` exactly when it is an input item whose key is `k` |
| Grouping.SelectEmpty | deduplicator.py:78-83 | a key's list is empty exactly when the key is not in the dict |
| Grouping.SingleKey | deduplicator.py:78-83 | there is at most one key exactly when all items share their key |
| Grouping.InsertSpec | deduplicator.py:80-82 | `d[k].append(x)` extends the list of an existing key in place, or adds `(k, [x])` at the end |
| Grouping.GroupBySpec | deduplicator.py:78-83 | the insertion fold builds the reference partition: keys in order of first appearance, each with its items in input order |
| Grouping.PartitionSpec | deduplicator.py:78-83 | `.values()` lists, key by key, the in-order items of that key |
| Grouping.PartitionCovers | deduplicator.py:78-83 | every input item lands in exactly one bucket, counting repetitions |
| Grouping.PartitionNonEmpty | deduplicator.py:78-83 | no bucket of a `defaultdict` that was only appended to is empty |
| Grouping.BucketOf | deduplicator.py:78-83 | an item lies in the bucket of its own key |
| Grouping.SelectFirst | dupes2.py:131 | the head of a key's list is the first input item with that key |
| Grouping.LookupSpec | dupes2.py:131 | looking a key up in the dict gives exactly the items with that key |
| Grouping.WithoutCovers | deduplicator.py:136-139 | skipping one key's list and walking the others visits exactly the items with another key |
| Grouping.SelectRejectSplit | deduplicator.py:136-139 | each item goes either to the skipped key's list or to the rest |
| Grouping.FilterSolo | deduplicator.py:169-170 | every kept group has more than one member |
| Grouping.FilterSoloMember | deduplicator.py:169-170 | a group survives exactly when it was given and has more than one member |
| Grouping.FilterSoloCount | deduplicator.py:169-170 | a surviving group keeps its multiplicity and the others vanish |
| Grouping.FilterSoloAppend | deduplicator.py:169-170 | the filter works group by group, so input order is kept |
| Grouping.FilterSoloIdempotent | deduplicator.py:169-170 | filtering twice removes nothing more |
| Grouping.Refine | deduplicator.py:226-230 | one pass of `group_compose` leaves no singleton group |
| Grouping.RefineMember | deduplicator.py:226-230 | a group of a pass is exactly a non-singleton group the stage produced from some input group |
| Grouping.RefineFiltered | deduplicator.py:229 | the filter after a pass drops nothing more |
| Grouping.GroupCompose | deduplicator.py:224-231 | with one stage or more, no singleton group is returned |
| Grouping.GroupComposeAppend | deduplicator.py:224-231 | running stages `s1`, then `s2`, is running `s1 + s2` |
| Seqs.FlattenPermutation | deduplicator.py:100 | reordering the parts does not change the items of their concatenation |
| Seqs.FlattenMember | deduplicator.py:100 | an item is in a concatenation exactly when it is in one of the parts |
| HashGrouping.Hashable | deduplicator.py:97-103 | a class is kept exactly when the hash of its first member did not raise |
| HashGrouping.HashClassesCalls | deduplicator.py:97-99 | with several classes, the hash is called once per class, on its first member, in class order |
| HashGrouping.HashClassesGroups | deduplicator.py:96-105 | every bucket keeps whole classes, its members carry its digest, and no two buckets share a digest |
| HashGrouping.HashClassesConsistent | deduplicator.py:96-105 | every bucket is drawn from the input, keeps whole classes, and any two of its members share a class or were matched by the hash |
| HashGrouping.HashClassesSurvivors | dupes2.py:73-83 | a file is returned exactly when its class's first member hashed without error |
| HashGrouping.HashClassesCount | deduplicator.py:97-105 | every surviving file is returned exactly as often as it was given |
| HashGrouping.OneClassConsistent | deduplicator.py:92-94 | a single class is consistent with any hash |
| HashGrouping.ConsistentSubGroup | deduplicator.py:224-231 | a later stage cannot undo the consistency an earlier one established |
| Pipeline.StatFiles | deduplicator.py:66-75 | every record produced is a regular file with a non-zero size |
| Pipeline.StatFilesMember | deduplicator.py:66-75 | a record is produced exactly for a listed name that stats, is regular and is not empty |
| Pipeline.StatFilesAppend | deduplicator.py:66-75 | each name is handled on its own, so the generator streams |
| Pipeline.GroupBySize | deduplicator.py:161-162 | one bucket per distinct size, holding exactly the files of that size, none empty |
| Pipeline.GroupByHashShortCircuit | deduplicator.py:86-94 | the hash is never called exactly when there is at most one `(st_ino, st_dev)` class, the empty input included, and then `[files]` is returned |
| Pipeline.GroupByHashCalls | deduplicator.py:96-99 | otherwise each class is hashed once, through its first member |
| Pipeline.GroupByHashGroups | deduplicator.py:86-105 | every group is drawn from the input, keeps whole `(st_ino, st_dev)` classes and is hash-consistent |
| Pipeline.GroupByHashCount | deduplicator.py:86-105 | a file is returned as often as given, unless there are several classes and its class's hash raised, and then it is not returned at all |
| Pipeline.DeduplicateSound | deduplicator.py:224-246 | every yielded group has two members or more, all stat'ed non-empty regular files of one size, any two sharing `(st_ino, st_dev)` or matched by both hashes |
| Pipeline.HashStageTogether | deduplicator.py:86-105 | a hash stage keeps two records of one `(st_ino, st_dev)` class together when every record of that class hashes, whatever the other classes do |
| Pipeline.HashStageMatches | deduplicator.py:86-105 | a hash stage keeps two records together when every record of their two classes hashes to one digest |
| Pipeline.DeduplicateKeepsLinksTogether | deduplicator.py:234-246 | two stat'ed records of one file and one size share a yielded group when every record of that file hashes under both functions; other files may fail to hash |
| Pipeline.DeduplicateComplete | deduplicator.py:234-246 | the converse of `DeduplicateSound`: two stat'ed records of one size share a yielded group when every record of their two files hashes to one quick digest and one full digest |
| FileSystem.BackupName | deduplicator.py:120 | the backup name always differs from the target's name |
| FileSystem.Run | deduplicator.py:121-123 | the calls are made in order, stop at the first that raises, and that call is reported |
| FileSystem.ReplaceByLink | deduplicator.py:119-123 | rename, link, unlink in that order: a refused rename changes nothing; a failed link leaves the original content at `.bak`; success makes the target's path name the survivor's storage |
| FileSystem.ReplaceKeepsStorage | deduplicator.py:119-123 | without a file already at `.bak`, no storage becomes unreachable except the target's own once replaced |
| FileSystem.ReplaceSucceeds | deduplicator.py:119-123 | with both files present, distinct paths and no call refused, the replacement succeeds |
| FileSystem.ExistingBackupOverwritten | deduplicator.py:120-121 | a file already at `<target>.bak` is lost by a successful replacement |
| Consolidate.Hardlink | deduplicator.py:115-125 | the device assertion fails exactly across devices; a dry run changes nothing and returns `dest`'s size; otherwise the three steps run in order and a failed link leaves the original at `.bak` |
| Consolidate.HardlinkSucceeds | deduplicator.py:115-125 | on one device, with both files present and no call refused, the link is made and `dest`'s size is returned |
| Consolidate.ReclaimedAppend | deduplicator.py:134-146 | the bytes of two runs of calls add up |
| Consolidate.MostLinked | deduplicator.py:135 | `max` by `st_nlink` gives the first file with the most links |
| Consolidate.LinkEach | deduplicator.py:139-145 | every target is attempted once, in order, from the master; a raising call is recorded and the loop goes on; the total is the sum of the sizes of the calls that did not raise |
| Consolidate.OtherInodes | deduplicator.py:136-139 | the targets are, counting repetitions, the files whose inode is not the master's |
| Consolidate.MakeHardlinksWithinDevice | deduplicator.py:128-146 | the count is the sum of the sizes of the successful calls; a dry run changes nothing |
| Consolidate.WithinDeviceTrivial | deduplicator.py:128-132 | no call is made exactly when there is at most one inode, and then 0 is returned and nothing changes |
| Consolidate.WithinDeviceTargets | deduplicator.py:134-145 | otherwise every call is from the first most-linked file, and the targets are exactly the files of the other inodes, each once |
| Consolidate.WithinDeviceAttempts | deduplicator.py:128-146 | every call links two of the given files with different inodes |
| Consolidate.GroupByDev | deduplicator.py:165-166 | one bucket per device, holding exactly that device's files |
| Consolidate.LinkDevices | deduplicator.py:151-152 | the per-device totals add up to the bytes of the successful calls; a dry run changes nothing |
| Consolidate.MakeHardlinks | deduplicator.py:149-153 | the total is the sum of the sizes of the successful calls; a dry run changes nothing |
| Consolidate.MakeHardlinksSameDevice | deduplicator.py:149-153 | every call links two given files on one device with different inodes, so the device assertion never fails |
| Consolidate.MakeHardlinksIdle | deduplicator.py:131-132 | no call is made exactly when each device's files share one inode, and then 0 is returned and nothing changes |
| Consolidate.LinkDevicesIdle | deduplicator.py:151-152 | the device loop makes no call exactly when no device group has two inodes |
| Tokens.SplitJoin | deduplicator.py:176 | joining the pieces of a split gives the input back |
| Tokens.JoinSplit | deduplicator.py:176 | splitting the join of separator-free pieces gives the pieces back |
| Tokens.SplitSepFree | deduplicator.py:176 | no piece of a split contains the separator |
| Tokens.SplitExtend | deduplicator.py:176 | splitting `a + b` keeps all pieces of `a` but the last, which continues into `b` |
| Tokens.NonEmptyMember | deduplicator.py:183-184 | a token is yielded exactly when it is not empty |
| Tokens.NonEmptyAppend | deduplicator.py:182-184 | dropping empty tokens works token by token |
| Tokens.NamesClean | deduplicator.py:173-186 | the non-empty pieces of a stream are not empty and hold no separator |
| Reader.RoundSplit | deduplicator.py:176-180 | one round keeps the invariant: the pieces so far, then the bytes held back |
| Reader.AppendNonEmpty | deduplicator.py:182-184 | the inner loop yields the non-empty tokens of a round, in order |
| Reader.ReadRound | deduplicator.py:176-184 | a round holds back the last piece and yields the non-empty pieces before it, whether or not the last piece is empty |
| Reader.ReadFilenames | deduplicator.py:173-186 | the names are exactly the non-empty pieces of splitting the whole stream, whatever the chunk boundaries; none is empty or contains the separator |
| Dupes.LineName | dupes2.py:42 | a name is its line without the last character |
| Dupes.Names | dupes2.py:41-42 | one name per line, in order |
| Dupes.LastLineTruncated | dupes2.py:42 | a last line without a newline loses a real character |
| Dupes.Candidates | dupes2.py:41-49 | every record kept is a regular file |
| Dupes.CandidatesMember | dupes2.py:41-49 | a record is kept exactly for a listed line that stats and is regular, whatever its size |
| Dupes.GroupBySize | dupes2.py:39-55 | only same-size buckets with more than one file are returned |
| Dupes.GroupBySizeSound | dupes2.py:39-55 | every returned group holds listed regular files of one size |
| Dupes.GroupBySizeComplete | dupes2.py:39-55 | two different listed regular files of one size share a group, empty ones included |
| Dupes.EmptyFilesKept | dupes2.py:48-55 | two empty files make a group here, where deduplicator.py's `stat_files` drops both |
| Dupes.GroupByInode | dupes2.py:57-65 | one bucket per `st_ino` whatever the device, in order of first appearance, holding that inode's files in order |
| Dupes.GroupByHashShortCircuit | dupes2.py:67-70 | the hash is never called exactly when there is at most one inode number; then `[files]` is returned for two files or more and `[]` otherwise |
| Dupes.SharedInodeAcrossDevices | dupes2.py:68-70 | files sharing an inode number come back as one group without hashing, even on different devices |
| Dupes.SharedInodeContrast | dupes2.py:68-70 | for one inode number on two devices, deduplicator.py hashes both files and this version hashes neither |
| Dupes.GroupByHashCalls | dupes2.py:73-75 | with several inode numbers, each inode bucket is hashed once, through its first file, in bucket order |
| Dupes.GroupByHashGroups | dupes2.py:72-85 | every returned group has more than one file, keeps whole inode buckets and is hash-consistent |
| Dupes.GroupByHashKeepsMerged | dupes2.py:85 | with several inode numbers, a merged bucket is returned exactly when it holds more than one file |
| Dupes.GroupByHashMatches | dupes2.py:72-85 | two files whose inode buckets hash to one digest are returned together |
| Dupes.ExpandIsRefine | dupes2.py:170-171 | each nested hash loop is a `group_compose` pass |
| Dupes.HashLoops | dupes2.py:170-175 | the two nested hash loops with the final length test are two hash passes |
| Dupes.IdenticalPasses | dupes2.py:169-176 | the top-level loop is `group_compose` with stages size, quick hash, full hash, over the inode-keyed hash stage |
| Dupes.IdenticalSound | dupes2.py:169-176 | every group handed to the action has two files or more, all listed regular files of one size, any two sharing an inode number or matched by both hashes |
| Dupes.HashStageMatches | dupes2.py:72-85 | a hash stage keeps two listed files of a group together when every listed file sharing an inode number with either hashes to one digest |
| Dupes.IdenticalComplete | dupes2.py:168-176 | the converse of `IdenticalSound`: two listed regular files of one size reach the action together when every listed file sharing an inode number with either hashes to one quick digest and one full digest |
| Dupes.Hardlink | dupes2.py:96-111 | across devices `False` with no call; otherwise rename, link, unlink in order, and `True` exactly when no call raised, with the target's path then naming the survivor's storage and the backup gone; on `False`, nothing changed if the rename raised, and otherwise the target's storage is left at `<target>.bak` |
| Dupes.HardlinkAgrees | dupes2.py:96-111 | apart from the bool, this `hardlink` does what deduplicator.py's does outside a dry run |
| Dupes.HardlinkSucceeds | dupes2.py:102-111 | on one device, with both files present and no call refused, `True` and the link is made |
| Dupes.LastMostLinked | dupes2.py:118-122 | the `>=` scan picks the last file with the most links |
| Dupes.ScanInodes | dupes2.py:114-126 | the scan builds the inode dict and ends on the inode of the last most-linked file, `None` only for no files |
| Dupes.Master | dupes2.py:131 | the master is a file of the surviving inode |
| Dupes.MasterFirst | dupes2.py:131 | the master is the first file, in input order, of the surviving inode |
| Dupes.TieGoesToLast | dupes2.py:120-122 | on a tie this version keeps the later file, where deduplicator.py keeps the earlier |
| Dupes.LinkAll | dupes2.py:132-138 | every target is tried once, in order, from the master; a `False` does not stop the loop; no cross-device call succeeds |
| Dupes.MakeHardlinks | dupes2.py:113-138 | no cross-device call succeeds |
| Dupes.MakeHardlinksTrivial | dupes2.py:127-129 | no call is made exactly when there is at most one inode number, and then nothing changes |
| Dupes.MakeHardlinksTargets | dupes2.py:131-138 | otherwise every call is from the master, and the targets are exactly the files of the other inodes, each once |
| Dupes.MakeHardlinksTried | dupes2.py:113-138 | every call links two of the given files with different inode numbers |
| Dupes.LinkGroupsTried | dupes2.py:169-176 | with `--hardlink`, every call links two files of one reported group with different inode numbers |
| Dupes.DupesHardlinkTried | dupes2.py:169-176 | with `--hardlink`, every call links two listed regular files of one size with different inode numbers |

## Left out

- Hash computation: MD5 of the first block, SHA-1 of the whole file, and chunked file reading (`fast_hash`, `sha1`, `read_chunk`). Each hash is an oracle that may fail. Byte equality of a reported group therefore cannot be stated: only agreement of the hashes.
- The real behaviour of `os.stat`, `os.rename`, `os.link` and `os.unlink`, and races between stat, hash and link. Stat is one snapshot per path; a call's failure is the environment refusing it. The hash oracles do not depend on the namespace. In dupes2.py the action runs on each identical group before later size groups are hashed, so a `<target>.bak` rename made for an earlier group could make a later group's hash raise; the model computes every group first and links afterwards.
- The `S_ISLNK` half of `regular_file`: `os.stat` follows links, so one `regular` flag stands for the mode test.
- Option parsing with `getopt`, usage text and `sys.exit`.
- The `--exec` action: `subprocess.call` and `os.spawnvp`, and the status-127 check.
- `listing_print`, every diagnostic on standard error, and the `Kbytes saved` report, which is floating point.
- The `print("linking...")` to standard output in both `hardlink`s. In deduplicator.py:118 it is the only effect of a dry run, which the model treats as changing nothing. In dupes2.py:105 it sits inside the `try` between `os.rename` and `os.link`: a print that raises returns `False` with the target left at `<target>.bak` and no link attempted, a state the model reaches only through a refused `link`.
- Consolidate.Hardlink: assumes the print at deduplicator.py:118 does not raise. That print comes before the dry-run test and before `os.rename`, and it can raise, for example on a name that is not valid UTF-8 printed to a strict UTF-8 stdout, or on a closed pipe. The caller's `except` (deduplicator.py:142-145) then skips the target: nothing changes and nothing is counted. Outside a dry run the model reaches that state only through a refused rename. On a dry run the model has no such outcome, and it counts `dest`'s size.
- Reading standard input: the chunks that `read_chunk` returns and the lines that `readlines` returns are parameters. The Python 2/3 `fsencode` shim is not modelled either.
- Generator laziness: `stat_files`, `read_filenames` and `deduplicate` are modelled as whole sequences. `Pipeline.StatFilesAppend` and `Reader.ReadFilenames` state that the result is built item by item.
- `group_identical` in dupes2.py is `group_by_hash(files, sha1)`; it is modelled as the full-hash stage.
- Running the consolidation twice: a second run would start from fresh stat results, which are outside the model.
- Pipeline.Deduplicate: carries no contract of its own; what it yields is stated by `Pipeline.DeduplicateSound` and `Pipeline.DeduplicateComplete`.
- Dupes.Identical: carries no contract of its own; what it yields is stated by `Dupes.IdenticalPasses`, `Dupes.IdenticalSound` and `Dupes.IdenticalComplete`.
- The interpreter: both programs also run on Python 2. Where a contract states an order (`Grouping.GroupBySpec`, `HashGrouping.HashClassesCalls`, `Dupes.GroupByInode`, `Dupes.GroupByHashCalls`, and the target order behind `Consolidate.WithinDeviceTargets` and `Dupes.MakeHardlinksTargets`), the order is that of an insertion-ordered `dict`, as on CPython 3.7 and later; under Python 2 the order is arbitrary, and only the set-level contracts (membership, multiplicity, grouping) carry over.
- Dupes.LineName: lines are byte strings, as `readlines` returns them on Python 2. On Python 3 they are text, and `fname[:-1]` drops one character, which is several bytes for a multibyte character at the end of an unterminated last line; `Dupes.LastLineTruncated` states the byte-string case only.
- The POSIX rule that `rename` between two links of one file succeeds and does nothing. The model's rename always moves the name. So when `<target>.bak` already exists as a hard link of the target, the model's replacement succeeds and counts the size, while the real `os.link` raises because the target still exists.

=== FILE: common.dfy ===
/** Failure-carrying wrappers and the byte-level types shared by every module. */
module Common {

  /** An optional value: `None` stands for a call that raised (an `OSError` or `IOError`). */
  datatype Option<+T> = None | Some(value: T)

  /** A value or an error. */
  datatype Result<+T, +E> = Ok(value: T) | Err(error: E)

  /** One byte of a path or of a digest. */
  newtype Byte = b: int | 0 <= b < 256

  /** A path is an opaque byte string in the platform's native encoding. */
  type Path = seq<Byte>

  /** The digest a hash function returns. */
  type Digest = seq<Byte>
}

=== FILE: consolidate.dfy ===
/**
 * The hardlink consolidator of deduplicator.py, in three layers:
 * `make_hardlinks` splits a group of identical files by device and skips
 * devices holding a single file; `make_hardlinks_within_device` picks the
 * survivor (the first file with the most links) and replaces every file of
 * another inode by a link to it; `hardlink` makes one replacement, or only
 * reports it on a dry run, and returns the size it saves.
 *
 * Any exception a `hardlink` call raises (the `AssertionError` of its device
 * check, or an `OSError` of a system call) is caught by the caller, reported
 * and skipped; it is modelled as an error outcome recorded in the trace of
 * attempts, and the loop goes on.
 */
module Consolidate {
  import opened Common
  import opened Seqs
  import opened Grouping
  import opened Files
  import opened FileSystem

  /** Why a `hardlink` call raised: its device assertion, or a system call. */
  datatype LinkError = CrossDevice | OsError(op: Op)

  /** What one `hardlink` call did: the namespace after it, the system calls made, and the bytes it returned or the exception. */
  datatype LinkRun = LinkRun(fs: Fs, ops: seq<Op>, outcome: Result<nat, LinkError>)

  /** One `hardlink(master, f, dry_run)` call in a consolidation, with its outcome. */
  datatype Attempt = Attempt(src: FileInfo, dest: FileInfo, outcome: Result<nat, LinkError>)

  /** What a consolidation did: bytes counted, final namespace, `hardlink` calls in order, system calls in order. */
  datatype Consolidation = Consolidation(saved: nat, fs: Fs, attempts: seq<Attempt>, ops: seq<Op>)

  // ---------------------------------------------------------------------------
  // hardlink
  // ---------------------------------------------------------------------------

  /**
   * `hardlink(src, dest, dry_run)`: make `dest`'s path a link to `src`'s
   * storage.  Both must be on one device; a dry run touches nothing.  The
   * size returned is `dest`'s size as stat'ed before.
   */
  function Hardlink(fs: Fs, src: FileInfo, dest: FileInfo, dryRun: bool): (r: LinkRun)
    ensures r.outcome == Err(CrossDevice) <==> DevOf(src) != DevOf(dest)
    ensures r.outcome.Ok? ==> r.outcome.value == SizeOf(dest)
    ensures r.fs.refused == fs.refused
    ensures DevOf(src) != DevOf(dest) || dryRun ==> r.fs == fs && r.ops == []
    ensures DevOf(src) == DevOf(dest) && dryRun ==> r.outcome.Ok?
    ensures DevOf(src) == DevOf(dest) && !dryRun ==>
              1 <= |r.ops| <= 3 && r.ops == Plan(src.path, dest.path)[..|r.ops|] &&
              (r.outcome.Ok? ==> r.ops == Plan(src.path, dest.path))
    ensures r.outcome == Err(OsError(Rename(dest.path, BackupName(dest.path)))) ==> r.fs == fs
    ensures r.outcome == Err(OsError(Link(src.path, dest.path))) ==>
              dest.path in fs.names && dest.path !in r.fs.names &&
              BackupName(dest.path) in r.fs.names && r.fs.names[BackupName(dest.path)] == fs.names[dest.path]
    ensures r.outcome == Err(OsError(Unlink(BackupName(dest.path)))) ==>
              dest.path in fs.names &&
              BackupName(dest.path) in r.fs.names && r.fs.names[BackupName(dest.path)] == fs.names[dest.path]
    ensures r.outcome.Ok? && !dryRun && src.path != BackupName(dest.path) ==>
              src.path in fs.names && dest.path in fs.names &&
              r.fs.names == (fs.names - {BackupName(dest.path)})[dest.path := fs.names[src.path]]
  {
    if src.st.dev != dest.st.dev then LinkRun(fs, [], Err(CrossDevice))
    else if dryRun then LinkRun(fs, [], Ok(dest.st.size))
    else
      var s := ReplaceByLink(fs, src.path, dest.path);
      match s.failed
        case Some(op) => LinkRun(s.fs, s.ops, Err(OsError(op)))
        case None => LinkRun(s.fs, s.ops, Ok(dest.st.size))
  }

  /**
   * On one device, with both files in place, distinct paths and no call
   * refused, a real `hardlink` succeeds: `dest`'s path then names `src`'s
   * storage.
   */
  lemma HardlinkSucceeds(fs: Fs, src: FileInfo, dest: FileInfo)
    requires DevOf(src) == DevOf(dest)
    requires src.path in fs.names && dest.path in fs.names
    requires src.path != dest.path && src.path != BackupName(dest.path)
    requires forall op :: op in Plan(src.path, dest.path) ==> op !in fs.refused
    ensures var r := Hardlink(fs, src, dest, false);
      r.outcome == Ok(SizeOf(dest)) && r.fs.names[dest.path] == fs.names[src.path]
  {
    ReplaceSucceeds(fs, src.path, dest.path);
  }

  // ---------------------------------------------------------------------------
  // The bytes a run of attempts saves
  // ---------------------------------------------------------------------------

  /** The sum of the sizes of the targets whose `hardlink` call did not raise. */
  function Reclaimed(attempts: seq<Attempt>): nat
    decreases |attempts|
  {
    if |attempts| == 0 then 0
    else (if attempts[0].outcome.Ok? then SizeOf(attempts[0].dest) else 0) + Reclaimed(attempts[1..])
  }

  lemma {:induction false} ReclaimedAppend(a: seq<Attempt>, b: seq<Attempt>)
    ensures Reclaimed(a + b) == Reclaimed(a) + Reclaimed(b)
    decreases |a|
  {
    if |a| == 0 {
      assert a + b == b;
    } else {
      assert (a + b)[1..] == a[1..] + b;
      ReclaimedAppend(a[1..], b);
    }
  }

  /** The targets of a run of attempts, in order. */
  function Dests(attempts: seq<Attempt>): (ds: seq<FileInfo>)
    ensures |ds| == |attempts|
    ensures forall i :: 0 <= i < |attempts| ==> ds[i] == attempts[i].dest
    decreases |attempts|
  {
    if |attempts| == 0 then [] else [attempts[0].dest] + Dests(attempts[1..])
  }

  // ---------------------------------------------------------------------------
  // make_hardlinks_within_device
  // ---------------------------------------------------------------------------

  /** `max(files, key=st_nlink)`: the position of the first file with the most links. */
  function MostLinked(files: seq<FileInfo>): (i: nat)
    requires |files| > 0
    ensures i < |files|
    ensures forall j :: 0 <= j < |files| ==> files[j].st.nlink <= files[i].st.nlink
    ensures forall j :: 0 <= j < i ==> files[j].st.nlink < files[i].st.nlink
    decreases |files|
  {
    if |files| == 1 then 0
    else
      var k := 1 + MostLinked(files[1..]);
      if files[k].st.nlink > files[0].st.nlink then k else 0
  }

  /** Call `hardlink(master, f, dry_run)` for every target in order, catching every exception. */
  function LinkEach(fs: Fs, master: FileInfo, targets: seq<FileInfo>, dryRun: bool): (r: Consolidation)
    ensures |r.attempts| == |targets|
    ensures forall i :: 0 <= i < |targets| ==> r.attempts[i].src == master && r.attempts[i].dest == targets[i]
    ensures forall a :: a in r.attempts ==> (a.outcome == Err(CrossDevice) <==> DevOf(a.src) != DevOf(a.dest))
    ensures r.saved == Reclaimed(r.attempts)
    ensures r.fs.refused == fs.refused
    ensures dryRun ==> r.fs == fs && r.ops == []
    decreases |targets|
  {
    if |targets| == 0 then Consolidation(0, fs, [], [])
    else
      var h := Hardlink(fs, master, targets[0], dryRun);
      var rest := LinkEach(h.fs, master, targets[1..], dryRun);
      var gain := match h.outcome case Ok(n) => n case Err(_) => 0;
      var attempts := [Attempt(master, targets[0], h.outcome)] + rest.attempts;
      assert attempts[1..] == rest.attempts;
      Consolidation(gain + rest.saved, rest.fs, attempts, h.ops + rest.ops)
  }

  /** The files of every inode but `ino`, inode by inode (the loop with its `continue`). */
  function OtherInodes(files: seq<FileInfo>, ino: nat): (r: seq<FileInfo>)
    ensures multiset(r) == multiset(Reject(files, InoOf, ino))
  {
    WithoutCovers(files, InoOf, ino);
    Flatten(Values(Without(GroupBy(files, InoOf), ino)))
  }

  /**
   * `make_hardlinks_within_device`: with fewer than two inodes, nothing to
   * do; otherwise link the first most-linked file over every file of every
   * other inode.
   */
  function MakeHardlinksWithinDevice(fs: Fs, files: seq<FileInfo>, dryRun: bool): (r: Consolidation)
    ensures r.saved == Reclaimed(r.attempts)
    ensures forall a :: a in r.attempts ==> (a.outcome == Err(CrossDevice) <==> DevOf(a.src) != DevOf(a.dest))
    ensures r.fs.refused == fs.refused
    ensures dryRun ==> r.fs == fs && r.ops == []
  {
    var byInode := GroupBy(files, InoOf);
    if |byInode| <= 1 then Consolidation(0, fs, [], [])
    else
      var master := files[MostLinked(files)];
      LinkEach(fs, master, OtherInodes(files, master.st.ino), dryRun)
  }

  /** The survivor of a device group: the first file with the most links. */
  function Master(files: seq<FileInfo>): FileInfo
    requires |files| > 0
  {
    files[MostLinked(files)]
  }

  /**
   * No `hardlink` call is made exactly when the files have at most one inode,
   * and then nothing is saved and nothing changes.
   */
  lemma WithinDeviceTrivial(fs: Fs, files: seq<FileInfo>, dryRun: bool)
    ensures var r := MakeHardlinksWithinDevice(fs, files, dryRun);
      && (r.attempts == [] <==> |KeysOf(files, InoOf)| <= 1)
      && (|KeysOf(files, InoOf)| <= 1 ==> r.saved == 0 && r.fs == fs && r.ops == [])
  {
    GroupBySpec(files, InoOf);
    var ks := KeysOf(files, InoOf);
    if |ks| > 1 {
      var m := Master(files);
      var j := if ks[0] != m.st.ino then 0 else 1;
      var y := KeyHasItem(files, InoOf, j);
      RejectMember(files, InoOf, m.st.ino, y);
      assert y in multiset(OtherInodes(files, m.st.ino));
    }
  }

  /**
   * With two inodes or more, every `hardlink` call links the first
   * most-linked file, and the targets are exactly the files of the other
   * inodes, each once: no file sharing the survivor's inode is a target.
   */
  lemma WithinDeviceTargets(fs: Fs, files: seq<FileInfo>, dryRun: bool)
    requires |KeysOf(files, InoOf)| > 1
    ensures var r := MakeHardlinksWithinDevice(fs, files, dryRun);
      && |files| > 0
      && (forall a :: a in r.attempts ==> a.src == Master(files))
      && multiset(Dests(r.attempts)) == multiset(Reject(files, InoOf, Master(files).st.ino))
  {
    GroupBySpec(files, InoOf);
    var m := Master(files);
    var r := MakeHardlinksWithinDevice(fs, files, dryRun);
    var targets := OtherInodes(files, m.st.ino);
    assert Dests(r.attempts) == targets;
  }

  /** Every `hardlink` call links two files of the group with different inodes. */
  lemma WithinDeviceAttempts(fs: Fs, files: seq<FileInfo>, dryRun: bool)
    ensures forall a :: a in MakeHardlinksWithinDevice(fs, files, dryRun).attempts ==>
              a.src in files && a.dest in files && InoOf(a.src) != InoOf(a.dest)
  {
    GroupBySpec(files, InoOf);
    if |KeysOf(files, InoOf)| > 1 {
      var m := Master(files);
      var targets := OtherInodes(files, m.st.ino);
      forall d | d in targets
        ensures d in files && InoOf(d) != m.st.ino
      {
        RejectTarget(files, InoOf, m.st.ino, targets, d);
      }
      LinkEachFrom(fs, m, targets, dryRun);
    }
  }

  /** Every call of a run links the master over one of the targets. */
  lemma LinkEachFrom(fs: Fs, master: FileInfo, targets: seq<FileInfo>, dryRun: bool)
    ensures forall a :: a in LinkEach(fs, master, targets, dryRun).attempts ==> a.src == master && a.dest in targets
  {
    var r := LinkEach(fs, master, targets, dryRun);
    forall a | a in r.attempts
      ensures a.src == master && a.dest in targets
    {
      var i :| 0 <= i < |r.attempts| && r.attempts[i] == a;
    }
  }

  // ---------------------------------------------------------------------------
  // make_hardlinks
  // ---------------------------------------------------------------------------

  /** `group_by_dev`: the files of each device, devices in order of first appearance. */
  function GroupByDev(files: seq<FileInfo>): (r: seq<seq<FileInfo>>)
    ensures |r| == |KeysOf(files, DevOf)|
    ensures forall i :: 0 <= i < |r| ==> |r[i]| > 0 && forall x :: x in r[i] <==> x in files && DevOf(x) == KeysOf(files, DevOf)[i]
  {
    PartitionSpec(files, DevOf);
    PartitionNonEmpty(files, DevOf);
    var r := Partition(files, DevOf);
    assert forall i :: 0 <= i < |r| ==> r[i] in r;
    forall i | 0 <= i < |r|
      ensures forall x :: x in r[i] <==> x in files && DevOf(x) == KeysOf(files, DevOf)[i]
    {
      forall x {
        SelectMember(files, DevOf, KeysOf(files, DevOf)[i], x);
      }
    }
    r
  }

  /** The loop of `make_hardlinks`: consolidate each device group in turn and add up the results. */
  function LinkDevices(fs: Fs, groups: seq<seq<FileInfo>>, dryRun: bool): (r: Consolidation)
    ensures r.saved == Reclaimed(r.attempts)
    ensures forall a :: a in r.attempts ==> (a.outcome == Err(CrossDevice) <==> DevOf(a.src) != DevOf(a.dest))
    ensures r.fs.refused == fs.refused
    ensures dryRun ==> r.fs == fs && r.ops == []
    decreases |groups|
  {
    if |groups| == 0 then Consolidation(0, fs, [], [])
    else
      var c := MakeHardlinksWithinDevice(fs, groups[0], dryRun);
      var rest := LinkDevices(c.fs, groups[1..], dryRun);
      ReclaimedAppend(c.attempts, rest.attempts);
      Consolidation(c.saved + rest.saved, rest.fs, c.attempts + rest.attempts, c.ops + rest.ops)
  }

  /** `make_hardlinks`: consolidate within each device that holds more than one of the files. */
  function MakeHardlinks(fs: Fs, files: seq<FileInfo>, dryRun: bool): (r: Consolidation)
    ensures r.saved == Reclaimed(r.attempts)
    ensures r.fs.refused == fs.refused
    ensures dryRun ==> r.fs == fs && r.ops == []
  {
    LinkDevices(fs, FilterSolo(GroupByDev(files)), dryRun)
  }

  /** Every attempt of the loop links two files of one group with different inodes. */
  lemma {:induction false} LinkDevicesAttempts(fs: Fs, groups: seq<seq<FileInfo>>, dryRun: bool)
    ensures forall a :: a in LinkDevices(fs, groups, dryRun).attempts ==>
              exists g :: g in groups && a.src in g && a.dest in g && InoOf(a.src) != InoOf(a.dest)
    decreases |groups|
  {
    if |groups| > 0 {
      var c := MakeHardlinksWithinDevice(fs, groups[0], dryRun);
      WithinDeviceAttempts(fs, groups[0], dryRun);
      LinkDevicesAttempts(c.fs, groups[1..], dryRun);
      var r := LinkDevices(fs, groups, dryRun);
      forall a | a in r.attempts
        ensures exists g :: g in groups && a.src in g && a.dest in g && InoOf(a.src) != InoOf(a.dest)
      {
        if a in c.attempts {
          assert groups[0] in groups;
        } else {
          var g :| g in groups[1..] && a.src in g && a.dest in g && InoOf(a.src) != InoOf(a.dest);
          assert g in groups;
        }
      }
    }
  }

  /**
   * `make_hardlinks` only ever links two of the given files that are on one
   * device and have different inodes, so its device assertion never fails.
   */
  lemma MakeHardlinksSameDevice(fs: Fs, files: seq<FileInfo>, dryRun: bool)
    ensures forall a :: a in MakeHardlinks(fs, files, dryRun).attempts ==>
              a.src in files && a.dest in files && DevOf(a.src) == DevOf(a.dest) &&
              InoOf(a.src) != InoOf(a.dest) && a.outcome != Err(CrossDevice)
  {
    var groups := FilterSolo(GroupByDev(files));
    var r := MakeHardlinks(fs, files, dryRun);
    LinkDevicesAttempts(fs, groups, dryRun);
    forall a | a in r.attempts
      ensures a.src in files && a.dest in files && DevOf(a.src) == DevOf(a.dest)
    {
      var g :| g in groups && a.src in g && a.dest in g && InoOf(a.src) != InoOf(a.dest);
      FilterSoloMember(GroupByDev(files), g);
      var gs := GroupByDev(files);
      var j :| 0 <= j < |gs| && gs[j] == g;
    }
  }

  /** The loop makes no `hardlink` call exactly when no group has two inodes; then nothing changes. */
  lemma {:induction false} LinkDevicesIdle(fs: Fs, groups: seq<seq<FileInfo>>, dryRun: bool)
    ensures var r := LinkDevices(fs, groups, dryRun);
      && (r.attempts == [] <==> forall g :: g in groups ==> |KeysOf(g, InoOf)| <= 1)
      && (r.attempts == [] ==> r.saved == 0 && r.fs == fs && r.ops == [])
    decreases |groups|
  {
    if |groups| > 0 {
      var c := MakeHardlinksWithinDevice(fs, groups[0], dryRun);
      WithinDeviceTrivial(fs, groups[0], dryRun);
      LinkDevicesIdle(c.fs, groups[1..], dryRun);
      assert forall g :: g in groups <==> g == groups[0] || g in groups[1..];
    }
  }

  /** The device group holding `x` holds every file on `x`'s device. */
  lemma DeviceGroupOf(files: seq<FileInfo>, x: FileInfo) returns (g: seq<FileInfo>)
    requires x in files
    ensures g in GroupByDev(files)
    ensures forall y :: y in g <==> y in files && DevOf(y) == DevOf(x)
  {
    var j := BucketOf(files, DevOf, x);
    g := GroupByDev(files)[j];
  }

  /**
   * `make_hardlinks` makes no `hardlink` call exactly when the files on each
   * device share one inode, and then it returns 0 and changes nothing.
   */
  lemma MakeHardlinksIdle(fs: Fs, files: seq<FileInfo>, dryRun: bool)
    ensures var r := MakeHardlinks(fs, files, dryRun);
      && (r.attempts == [] <==>
            forall x, y :: x in files && y in files && DevOf(x) == DevOf(y) ==> InoOf(x) == InoOf(y))
      && (r.attempts == [] ==> r.saved == 0 && r.fs == fs && r.ops == [])
  {
    var groups := FilterSolo(GroupByDev(files));
    LinkDevicesIdle(fs, groups, dryRun);
    if forall x, y :: x in files && y in files && DevOf(x) == DevOf(y) ==> InoOf(x) == InoOf(y) {
      forall g | g in groups
        ensures |KeysOf(g, InoOf)| <= 1
      {
        OneInodePerDevice(files, g);
      }
    } else {
      var x, y :| x in files && y in files && DevOf(x) == DevOf(y) && InoOf(x) != InoOf(y);
      var g := TwoInodesOnDevice(files, x, y);
    }
  }

  /** When each device's files share an inode, so do those of each device group. */
  lemma OneInodePerDevice(files: seq<FileInfo>, g: seq<FileInfo>)
    requires forall x, y :: x in files && y in files && DevOf(x) == DevOf(y) ==> InoOf(x) == InoOf(y)
    requires g in FilterSolo(GroupByDev(files))
    ensures |KeysOf(g, InoOf)| <= 1
  {
    FilterSoloMember(GroupByDev(files), g);
    var gs := GroupByDev(files);
    var j :| 0 <= j < |gs| && gs[j] == g;
    SingleKey(g, InoOf);
    forall i, k | 0 <= i < |g| && 0 <= k < |g|
      ensures InoOf(g[i]) == InoOf(g[k])
    {
      assert g[i] in g && g[k] in g;
    }
  }

  /** Two files of one device with different inodes make a device group with two inodes. */
  lemma TwoInodesOnDevice(files: seq<FileInfo>, x: FileInfo, y: FileInfo) returns (g: seq<FileInfo>)
    requires x in files && y in files && DevOf(x) == DevOf(y) && InoOf(x) != InoOf(y)
    ensures g in FilterSolo(GroupByDev(files)) && |KeysOf(g, InoOf)| > 1
  {
    g := DeviceGroupOf(files, x);
    assert y in g && x != y;
    TwoMembers(g, x, y);
    FilterSoloMember(GroupByDev(files), g);
    SingleKey(g, InoOf);
    var i :| 0 <= i < |g| && g[i] == x;
    var k :| 0 <= k < |g| && g[k] == y;
    assert InoOf(g[i]) != InoOf(g[k]);
  }
}

=== FILE: dupes2.dfy ===
/**
 * dupes2.py, the older version of the same tool.  It reads one file name per
 * line, groups the regular files by size (empty files included), then by a
 * quick hash and a full hash through a `group_by_hash` whose identity classes
 * are keyed on `st_ino` alone, and hands every group of two or more files to
 * the action.  Its `make_hardlinks` does not split by device: `hardlink`
 * refuses a cross-device pair by returning `False`, and the survivor is the
 * inode of the LAST file with the most links.
 */
module Dupes {
  import opened Common
  import opened Seqs
  import opened Grouping
  import opened Files
  import opened FileSystem
  import opened HashGrouping
  import Pipeline
  import Consolidate

  // ---------------------------------------------------------------------------
  // group_by_size
  // ---------------------------------------------------------------------------

  /** `fname[:-1]`: the line without its last character, meant to be the newline. */
  function LineName(line: seq<Byte>): (name: Path)
    ensures name <= line
    ensures |line| > 0 ==> |name| == |line| - 1
    ensures |line| == 0 ==> name == []
  {
    if |line| == 0 then [] else line[..|line|-1]
  }

  /** The file names the lines give, in order. */
  function Names(lines: seq<seq<Byte>>): (ns: seq<Path>)
    ensures |ns| == |lines|
    ensures forall i :: 0 <= i < |lines| ==> ns[i] == LineName(lines[i])
    decreases |lines|
  {
    if |lines| == 0 then [] else [LineName(lines[0])] + Names(lines[1..])
  }

  /** `f` is the record of a listed name whose stat succeeds, and it is a regular file (of any size). */
  predicate Listed(lines: seq<seq<Byte>>, stat: StatOracle, f: FileInfo)
  {
    f.path in Names(lines) && stat(f.path) == Some(f.st) && RegularFile(f)
  }

  /** The loop of `group_by_size` before bucketing: the records that stat and are regular, in order. */
  function Candidates(lines: seq<seq<Byte>>, stat: StatOracle): (r: seq<FileInfo>)
    ensures |r| <= |lines|
    ensures forall i :: 0 <= i < |r| ==> RegularFile(r[i])
    decreases |lines|
  {
    if |lines| == 0 then []
    else
      var name := LineName(lines[0]);
      var rest := Candidates(lines[1..], stat);
      match stat(name)
        case None => rest
        case Some(st) => if st.regular then [FileInfo(name, st)] + rest else rest
  }

  /** A record is kept exactly for a listed line whose stat succeeds and is regular; its size does not matter. */
  lemma {:induction false} CandidatesMember(lines: seq<seq<Byte>>, stat: StatOracle, f: FileInfo)
    ensures f in Candidates(lines, stat) <==> Listed(lines, stat, f)
    decreases |lines|
  {
    if |lines| > 0 {
      CandidatesMember(lines[1..], stat, f);
      assert f.path in Names(lines) <==> f.path == LineName(lines[0]) || f.path in Names(lines[1..]);
    }
  }

  /** `group_by_size()`: the same-size buckets of the listed regular files that hold more than one file. */
  function GroupBySize(lines: seq<seq<Byte>>, stat: StatOracle): (r: seq<seq<FileInfo>>)
    ensures forall i :: 0 <= i < |r| ==> |r[i]| > 1
  {
    FilterSolo(Partition(Candidates(lines, stat), SizeOf))
  }

  /** Every returned group holds listed regular files, all of one size. */
  lemma GroupBySizeSound(lines: seq<seq<Byte>>, stat: StatOracle, g: seq<FileInfo>)
    requires g in GroupBySize(lines, stat)
    ensures |g| > 1
    ensures forall x :: x in g ==> Listed(lines, stat, x)
    ensures Pipeline.SameSize(g)
  {
    var all := Candidates(lines, stat);
    FilterSoloMember(Partition(all, SizeOf), g);
    PartitionSpec(all, SizeOf);
    var i :| 0 <= i < |Partition(all, SizeOf)| && Partition(all, SizeOf)[i] == g;
    forall x | x in g
      ensures Listed(lines, stat, x)
    {
      SelectMember(all, SizeOf, KeysOf(all, SizeOf)[i], x);
      CandidatesMember(lines, stat, x);
    }
    forall x, y | x in g && y in g
      ensures SizeOf(x) == SizeOf(y)
    {
      SelectMember(all, SizeOf, KeysOf(all, SizeOf)[i], x);
      SelectMember(all, SizeOf, KeysOf(all, SizeOf)[i], y);
    }
  }

  /** Two different listed regular files of one size, empty ones included, share a returned group. */
  lemma GroupBySizeComplete(lines: seq<seq<Byte>>, stat: StatOracle, x: FileInfo, y: FileInfo)
    requires Listed(lines, stat, x) && Listed(lines, stat, y) && x != y && SizeOf(x) == SizeOf(y)
    ensures Pipeline.Together(GroupBySize(lines, stat), x, y)
  {
    var all := Candidates(lines, stat);
    CandidatesMember(lines, stat, x);
    CandidatesMember(lines, stat, y);
    var j := BucketOf(all, SizeOf, x);
    var g := Partition(all, SizeOf)[j];
    PartitionSpec(all, SizeOf);
    SelectMember(all, SizeOf, KeysOf(all, SizeOf)[j], y);
    TwoMembers(g, x, y);
    FilterSoloMember(Partition(all, SizeOf), g);
  }

  /**
   * Two empty regular files make a group here, where `stat_files` of
   * deduplicator.py drops them both.
   */
  lemma EmptyFilesKept()
    ensures var a, b := [0x61 as Byte], [0x62 as Byte];
      var stat: StatOracle := (p: Path) => if p == a then Some(Stat(1, 10, 1, 0, true))
                                           else if p == b then Some(Stat(1, 11, 1, 0, true)) else None;
      && GroupBySize([a + [0x0a], b + [0x0a]], stat)
           == [[FileInfo(a, Stat(1, 10, 1, 0, true)), FileInfo(b, Stat(1, 11, 1, 0, true))]]
      && Pipeline.StatFiles([a, b], stat) == []
  {
    var a, b := [0x61 as Byte], [0x62 as Byte];
    var stat: StatOracle := (p: Path) => if p == a then Some(Stat(1, 10, 1, 0, true))
                                         else if p == b then Some(Stat(1, 11, 1, 0, true)) else None;
    var la, lb := a + [0x0a], b + [0x0a];
    var fa, fb := FileInfo(a, Stat(1, 10, 1, 0, true)), FileInfo(b, Stat(1, 11, 1, 0, true));
    assert LineName(la) == a && LineName(lb) == b;
    assert [la, lb][1..] == [lb];
    assert Candidates([lb], stat) == [fb];
    assert Candidates([la, lb], stat) == [fa, fb];
    assert [fa, fb][..1] == [fa];
    assert GroupBy([fa], SizeOf) == [(0, [fa])];
    assert GroupBy([fa, fb], SizeOf) == [(0, [fa, fb])];
    assert [a, b][1..] == [b];
  }

  /**
   * A last line without a newline loses its last real character: the line
   * `ab` names the file `a`.
   */
  lemma LastLineTruncated()
    ensures LineName([0x61, 0x62]) == [0x61]
  {
  }

  // ---------------------------------------------------------------------------
  // group_by_inode and group_by_hash
  // ---------------------------------------------------------------------------

  /** `group_by_inode`: the files of each `st_ino`, whatever their device, inodes in order of first appearance. */
  function GroupByInode(files: seq<FileInfo>): (d: Dict<nat, FileInfo>)
    ensures DictKeys(d) == KeysOf(files, InoOf)
    ensures forall i :: 0 <= i < |d| ==> d[i].1 == Select(files, InoOf, d[i].0)
  {
    GroupBySpec(files, InoOf);
    GroupBy(files, InoOf)
  }

  /**
   * `group_by_hash`: with at most one inode number the input is returned
   * whole when it has two files or more, and nothing is hashed; otherwise
   * every inode bucket is hashed once and only merged buckets of two files or
   * more are returned.
   */
  function GroupByHash(files: seq<FileInfo>, hash: HashOracle): HashRun
  {
    if |GroupByInode(files)| <= 1 then HashRun(if |files| > 1 then [files] else [], [])
    else
      var h := HashClasses(files, InoOf, hash);
      HashRun(FilterSolo(h.groups), h.hashed)
  }

  /**
   * The hash is never called exactly when the files share at most one inode
   * number, and then the input comes back whole, or not at all if it is a
   * single file.
   */
  lemma GroupByHashShortCircuit(files: seq<FileInfo>, hash: HashOracle)
    ensures var r := GroupByHash(files, hash);
      && (r.hashed == [] <==> |KeysOf(files, InoOf)| <= 1)
      && (|KeysOf(files, InoOf)| <= 1 ==> r.groups == if |files| > 1 then [files] else [])
  {
    HashClassesCalls(files, InoOf, hash);
  }

  /**
   * Files with one inode number on different devices are different files,
   * yet they come back as one group without any hash call.
   */
  lemma SharedInodeAcrossDevices(files: seq<FileInfo>, hash: HashOracle)
    requires |files| > 1
    requires forall i, j :: 0 <= i < |files| && 0 <= j < |files| ==> files[i].st.ino == files[j].st.ino
    ensures GroupByHash(files, hash) == HashRun([files], [])
  {
    SingleKey(files, InoOf);
  }

  /**
   * For two files that share an inode number but not a device,
   * deduplicator.py hashes both, while this version hashes neither and
   * reports them as one group whatever their contents.
   */
  lemma SharedInodeContrast(hash: HashOracle)
    ensures var x, y := FileInfo([0x61], Stat(1, 7, 1, 5, true)), FileInfo([0x62], Stat(2, 7, 1, 5, true));
      && GroupByHash([x, y], hash) == HashRun([[x, y]], [])
      && Pipeline.GroupByHash([x, y], hash).hashed == [x, y]
  {
    var x, y := FileInfo([0x61], Stat(1, 7, 1, 5, true)), FileInfo([0x62], Stat(2, 7, 1, 5, true));
    SharedInodeAcrossDevices([x, y], hash);
    TwoIdents(x, y);
  }

  /** Two files of different `(st_ino, st_dev)` are two classes, each hashed through itself. */
  lemma TwoIdents(x: FileInfo, y: FileInfo)
    requires IdentOf(x) != IdentOf(y)
    ensures Classes([x, y], IdentOf) == [[x], [y]]
  {
    assert [x, y][..1] == [x];
    assert [x][..0] == [];
    assert GroupBy([x], IdentOf) == [(IdentOf(x), [x])];
    assert [(IdentOf(x), [x])][1..] == [];
    assert GroupBy([x, y], IdentOf) == Insert([(IdentOf(x), [x])], IdentOf(y), y);
    assert GroupBy([x, y], IdentOf) == [(IdentOf(x), [x]), (IdentOf(y), [y])];
  }

  /** With two inode numbers or more, each inode bucket is hashed once, through its first file, in bucket order. */
  lemma GroupByHashCalls(files: seq<FileInfo>, hash: HashOracle)
    requires |KeysOf(files, InoOf)| > 1
    ensures var r := GroupByHash(files, hash);
      && |r.hashed| == |KeysOf(files, InoOf)|
      && forall i :: 0 <= i < |r.hashed| ==>
           |Select(files, InoOf, KeysOf(files, InoOf)[i])| > 0 &&
           r.hashed[i] == Select(files, InoOf, KeysOf(files, InoOf)[i])[0]
  {
    HashClassesCalls(files, InoOf, hash);
  }

  /**
   * Every returned group has two files or more, drawn from the input, keeps
   * whole inode buckets and is hash-consistent.
   */
  lemma GroupByHashGroups(files: seq<FileInfo>, hash: HashOracle)
    ensures forall g :: g in GroupByHash(files, hash).groups ==>
              |g| > 1 && SubGroup(g, files) && ClassClosed(g, files, InoOf) && HashConsistent(g, InoOf, hash)
  {
    if |KeysOf(files, InoOf)| <= 1 {
      OneClassConsistent(files, InoOf, hash);
    } else {
      HashClassesConsistent(files, InoOf, hash);
      forall g | g in GroupByHash(files, hash).groups
        ensures g in HashClasses(files, InoOf, hash).groups
      {
        FilterSoloMember(HashClasses(files, InoOf, hash).groups, g);
      }
    }
  }

  /**
   * With two inode numbers or more, a merged bucket is returned exactly when
   * it holds more than one file.
   */
  lemma GroupByHashKeepsMerged(files: seq<FileInfo>, hash: HashOracle, g: seq<FileInfo>)
    requires |KeysOf(files, InoOf)| > 1
    ensures g in GroupByHash(files, hash).groups <==> g in HashClasses(files, InoOf, hash).groups && |g| > 1
  {
    FilterSoloMember(HashClasses(files, InoOf, hash).groups, g);
  }

  /**
   * A file whose inode bucket hashed without error is returned together with
   * any other file whose bucket hashed to the same digest.
   */
  lemma GroupByHashMatches(files: seq<FileInfo>, hash: HashOracle, x: FileInfo, y: FileInfo)
    requires x in files && y in files && x != y
    requires RepDigest(files, InoOf, hash, x).Some? && RepDigest(files, InoOf, hash, x) == RepDigest(files, InoOf, hash, y)
    ensures Pipeline.Together(GroupByHash(files, hash).groups, x, y)
  {
    if |KeysOf(files, InoOf)| <= 1 {
      TwoMembers(files, x, y);
      assert files in GroupByHash(files, hash).groups;
    } else {
      var g := SameBucket(files, InoOf, hash, x, y);
      TwoMembers(g, x, y);
      GroupByHashKeepsMerged(files, hash, g);
    }
  }

  // ---------------------------------------------------------------------------
  // The top-level loop
  // ---------------------------------------------------------------------------

  /** `lambda same: group_by_hash(same, hash)` as one stage. */
  function HashStage(hash: HashOracle): seq<FileInfo> -> seq<seq<FileInfo>>
  {
    (files: seq<FileInfo>) => GroupByHash(files, hash).groups
  }

  /** The inner loops: concatenate the hash stage's groups of every group, with no filter between. */
  function ExpandHash(data: seq<seq<FileInfo>>, hash: HashOracle): seq<seq<FileInfo>>
    decreases |data|
  {
    if |data| == 0 then [] else GroupByHash(data[0], hash).groups + ExpandHash(data[1..], hash)
  }

  /** A hash stage returns no single file, so each nested loop is a pass of `group_compose`. */
  lemma {:induction false} ExpandIsRefine(data: seq<seq<FileInfo>>, hash: HashOracle)
    ensures ExpandHash(data, hash) == Refine(data, HashStage(hash))
    decreases |data|
  {
    if |data| > 0 {
      ExpandIsRefine(data[1..], hash);
      StageKeepsAll(data[0], hash);
    }
  }

  /** The filter after a hash stage drops nothing. */
  lemma StageKeepsAll(files: seq<FileInfo>, hash: HashOracle)
    ensures FilterSolo(HashStage(hash)(files)) == GroupByHash(files, hash).groups
  {
    var gs := GroupByHash(files, hash).groups;
    GroupByHashGroups(files, hash);
    assert forall i :: 0 <= i < |gs| ==> gs[i] in gs;
    FilterSoloNoSingles(gs);
  }

  /**
   * The groups the top-level loop hands to the action: the nested loops over
   * size groups, quick-hash groups and full-hash groups, with the `len <= 1`
   * test at the end.
   */
  function Identical(lines: seq<seq<Byte>>, stat: StatOracle, fast: HashOracle, full: HashOracle): seq<seq<FileInfo>>
  {
    FilterSolo(ExpandHash(ExpandHash(GroupBySize(lines, stat), fast), full))
  }

  /** The size pass of `group_compose` over the listed records is `group_by_size()`. */
  lemma SizePass(lines: seq<seq<Byte>>, stat: StatOracle)
    ensures Refine([Candidates(lines, stat)], Pipeline.GroupBySize) == GroupBySize(lines, stat)
  {
    var all := Candidates(lines, stat);
    assert [all][1..] == [];
    assert Refine([all], Pipeline.GroupBySize) == FilterSolo(Pipeline.GroupBySize(all)) + Refine([], Pipeline.GroupBySize);
  }

  /** The two nested hash loops with the final test are two hash passes. */
  lemma HashLoops(l0: seq<seq<FileInfo>>, fast: HashOracle, full: HashOracle)
    ensures FilterSolo(ExpandHash(ExpandHash(l0, fast), full))
         == Refine(Refine(l0, HashStage(fast)), HashStage(full))
  {
    ExpandIsRefine(l0, fast);
    var l1 := Refine(l0, HashStage(fast));
    ExpandIsRefine(l1, full);
    RefineFiltered(l1, HashStage(full));
  }

  /**
   * The loop is `group_compose` over all the listed records with the stages
   * size, quick hash, full hash, as in deduplicator.py, but with this
   * version's inode-keyed hash stage.
   */
  lemma IdenticalPasses(lines: seq<seq<Byte>>, stat: StatOracle, fast: HashOracle, full: HashOracle)
    ensures Identical(lines, stat, fast, full)
         == GroupCompose([Candidates(lines, stat)], [Pipeline.GroupBySize, HashStage(fast), HashStage(full)])
  {
    SizePass(lines, stat);
    HashLoops(GroupBySize(lines, stat), fast, full);
    GroupComposeThree([Candidates(lines, stat)], Pipeline.GroupBySize, HashStage(fast), HashStage(full));
  }

  /** A group after the size and quick-hash passes. */
  ghost predicate FastOk(g: seq<FileInfo>, lines: seq<seq<Byte>>, stat: StatOracle, fast: HashOracle)
  {
    (forall x :: x in g ==> Listed(lines, stat, x)) && Pipeline.SameSize(g) && HashConsistent(g, InoOf, fast)
  }

  lemma FastPassOk(lines: seq<seq<Byte>>, stat: StatOracle, fast: HashOracle, d: seq<FileInfo>, g: seq<FileInfo>)
    requires d in GroupBySize(lines, stat) && g in GroupByHash(d, fast).groups
    ensures FastOk(g, lines, stat, fast)
  {
    GroupBySizeSound(lines, stat, d);
    GroupByHashGroups(d, fast);
  }

  lemma FullPassOk(lines: seq<seq<Byte>>, stat: StatOracle, fast: HashOracle, full: HashOracle, d: seq<FileInfo>, g: seq<FileInfo>)
    requires FastOk(d, lines, stat, fast) && g in GroupByHash(d, full).groups
    ensures |g| > 1 && FastOk(g, lines, stat, fast) && HashConsistent(g, InoOf, full)
  {
    GroupByHashGroups(d, full);
    ConsistentSubGroup(d, g, InoOf, fast);
  }

  /** The size group and quick-hash group a reported group came from. */
  lemma IdenticalOrigin(lines: seq<seq<Byte>>, stat: StatOracle, fast: HashOracle, full: HashOracle, g: seq<FileInfo>)
      returns (d1: seq<FileInfo>, d2: seq<FileInfo>)
    requires g in Identical(lines, stat, fast, full)
    ensures d1 in GroupBySize(lines, stat) && d2 in GroupByHash(d1, fast).groups && g in GroupByHash(d2, full).groups
    ensures |g| > 1
  {
    var l0 := GroupBySize(lines, stat);
    var l1 := ExpandHash(l0, fast);
    FilterSoloMember(ExpandHash(l1, full), g);
    d2 := ExpandOrigin(l1, full, g);
    d1 := ExpandOrigin(l0, fast, d2);
  }

  /** The pass invariants, carried down from a size group to a reported group. */
  lemma ChainOk(lines: seq<seq<Byte>>, stat: StatOracle, fast: HashOracle, full: HashOracle,
                d1: seq<FileInfo>, d2: seq<FileInfo>, g: seq<FileInfo>)
    requires d1 in GroupBySize(lines, stat) && d2 in GroupByHash(d1, fast).groups && g in GroupByHash(d2, full).groups
    requires |g| > 1
    ensures |g| >= 2
    ensures forall x :: x in g ==> Listed(lines, stat, x)
    ensures Pipeline.SameSize(g)
    ensures HashConsistent(g, InoOf, fast) && HashConsistent(g, InoOf, full)
  {
    FastPassOk(lines, stat, fast, d1, d2);
    FullPassOk(lines, stat, fast, full, d2, g);
  }

  /** The group a hash stage output came from. */
  lemma {:induction false} ExpandOrigin(data: seq<seq<FileInfo>>, hash: HashOracle, g: seq<FileInfo>)
      returns (d: seq<FileInfo>)
    requires g in ExpandHash(data, hash)
    ensures d in data && g in GroupByHash(d, hash).groups
    decreases |data|
  {
    if g in GroupByHash(data[0], hash).groups {
      d := data[0];
    } else {
      d := ExpandOrigin(data[1..], hash, g);
    }
  }

  /**
   * Every group the action receives has at least two members, all listed
   * regular files of one size that stat'ed, and any two of them share an
   * inode number or were matched by both hashes through bucket-mates.
   */
  lemma IdenticalSound(lines: seq<seq<Byte>>, stat: StatOracle, fast: HashOracle, full: HashOracle, g: seq<FileInfo>)
    requires g in Identical(lines, stat, fast, full)
    ensures |g| >= 2
    ensures forall x :: x in g ==> Listed(lines, stat, x)
    ensures Pipeline.SameSize(g)
    ensures HashConsistent(g, InoOf, fast) && HashConsistent(g, InoOf, full)
  {
    var d1, d2 := IdenticalOrigin(lines, stat, fast, full, g);
    ChainOk(lines, stat, fast, full, d1, d2, g);
  }

  /** A group a hash stage makes from one of the groups is among the nested loop's groups. */
  lemma {:induction false} ExpandMember(data: seq<seq<FileInfo>>, hash: HashOracle, d: seq<FileInfo>, g: seq<FileInfo>)
    requires d in data && g in GroupByHash(d, hash).groups
    ensures g in ExpandHash(data, hash)
    decreases |data|
  {
    if g !in GroupByHash(data[0], hash).groups {
      assert d in data[1..];
      ExpandMember(data[1..], hash, d, g);
    }
  }

  /** A hash stage keeps together two files of a group whose inode buckets all hash to `h`. */
  lemma HashStageMatches(lines: seq<seq<Byte>>, stat: StatOracle, d: seq<FileInfo>, hash: HashOracle,
                         x: FileInfo, y: FileInfo, h: Digest) returns (g: seq<FileInfo>)
    requires x in d && y in d && x != y
    requires forall f :: f in d ==> Listed(lines, stat, f)
    requires forall f :: Listed(lines, stat, f) && (InoOf(f) == InoOf(x) || InoOf(f) == InoOf(y)) ==> hash(f.path) == Some(h)
    ensures g in GroupByHash(d, hash).groups && x in g && y in g
  {
    assert Listed(lines, stat, Rep(d, InoOf, x)) && Listed(lines, stat, Rep(d, InoOf, y));
    GroupByHashMatches(d, hash, x, y);
    g :| g in GroupByHash(d, hash).groups && x in g && y in g;
  }

  /**
   * The converse of `IdenticalSound`: two different listed regular files of
   * one size are handed to the action together when every listed file sharing
   * an inode number with either hashes to the same quick digest and to the
   * same full digest, whatever happens to the other files.
   */
  lemma IdenticalComplete(lines: seq<seq<Byte>>, stat: StatOracle, fast: HashOracle, full: HashOracle,
                          x: FileInfo, y: FileInfo, quick: Digest, whole: Digest)
    requires Listed(lines, stat, x) && Listed(lines, stat, y) && x != y
    requires SizeOf(x) == SizeOf(y)
    requires forall f :: Listed(lines, stat, f) && (InoOf(f) == InoOf(x) || InoOf(f) == InoOf(y)) ==>
               fast(f.path) == Some(quick) && full(f.path) == Some(whole)
    ensures Pipeline.Together(Identical(lines, stat, fast, full), x, y)
  {
    var l0 := GroupBySize(lines, stat);
    var l1 := ExpandHash(l0, fast);
    var l2 := ExpandHash(l1, full);
    GroupBySizeComplete(lines, stat, x, y);
    var d1 :| d1 in l0 && x in d1 && y in d1;
    GroupBySizeSound(lines, stat, d1);
    var d2 := HashStageMatches(lines, stat, d1, fast, x, y, quick);
    ExpandMember(l0, fast, d1, d2);
    FastPassOk(lines, stat, fast, d1, d2);
    var g := HashStageMatches(lines, stat, d2, full, x, y, whole);
    ExpandMember(l1, full, d2, g);
    TwoMembers(g, x, y);
    FilterSoloMember(l2, g);
  }

  // ---------------------------------------------------------------------------
  // hardlink
  // ---------------------------------------------------------------------------

  /** What one `hardlink` call did: the namespace after it, the system calls made, and the bool it returned. */
  datatype LinkStep = LinkStep(fs: Fs, ops: seq<Op>, ok: bool)

  /**
   * `hardlink(src, dest)`: refuse two devices with `False`; otherwise rename,
   * link, unlink, and return whether no call raised.  A `False` on one device
   * leaves the namespace of the step that raised: unchanged after the rename,
   * the target's storage at the backup name after the link or the unlink.
   */
  function Hardlink(fs: Fs, src: FileInfo, dest: FileInfo): (r: LinkStep)
    ensures DevOf(src) != DevOf(dest) ==> !r.ok && r.fs == fs && r.ops == []
    ensures DevOf(src) == DevOf(dest) ==>
              1 <= |r.ops| <= 3 && r.ops == Plan(src.path, dest.path)[..|r.ops|]
    ensures r.ok ==> r.ops == Plan(src.path, dest.path)
    ensures r.ok <==> DevOf(src) == DevOf(dest) && ReplaceByLink(fs, src.path, dest.path).failed.None?
    ensures r.fs.refused == fs.refused
    ensures !r.ok && |r.ops| == 1 ==> r.fs == fs
    ensures !r.ok && |r.ops| == 2 ==>
              dest.path in fs.names && dest.path !in r.fs.names &&
              BackupName(dest.path) in r.fs.names && r.fs.names[BackupName(dest.path)] == fs.names[dest.path]
    ensures !r.ok && |r.ops| == 3 ==>
              dest.path in fs.names &&
              BackupName(dest.path) in r.fs.names && r.fs.names[BackupName(dest.path)] == fs.names[dest.path]
    ensures r.ok && src.path != BackupName(dest.path) ==>
              src.path in fs.names && dest.path in fs.names &&
              r.fs.names == (fs.names - {BackupName(dest.path)})[dest.path := fs.names[src.path]]
  {
    if src.st.dev != dest.st.dev then LinkStep(fs, [], false)
    else
      var s := ReplaceByLink(fs, src.path, dest.path);
      LinkStep(s.fs, s.ops, s.failed.None?)
  }

  /**
   * Apart from reporting with a bool instead of raising, this `hardlink`
   * does what deduplicator.py's does outside a dry run.
   */
  lemma HardlinkAgrees(fs: Fs, src: FileInfo, dest: FileInfo)
    ensures var r, h := Hardlink(fs, src, dest), Consolidate.Hardlink(fs, src, dest, false);
      r.fs == h.fs && r.ops == h.ops && (r.ok <==> h.outcome.Ok?)
  {
  }

  /** On one device, with both files in place and no call refused, `hardlink` returns `True` and links. */
  lemma HardlinkSucceeds(fs: Fs, src: FileInfo, dest: FileInfo)
    requires DevOf(src) == DevOf(dest)
    requires src.path in fs.names && dest.path in fs.names
    requires src.path != dest.path && src.path != BackupName(dest.path)
    requires forall op :: op in Plan(src.path, dest.path) ==> op !in fs.refused
    ensures var r := Hardlink(fs, src, dest);
      r.ok && r.fs.names[dest.path] == fs.names[src.path]
  {
    ReplaceSucceeds(fs, src.path, dest.path);
  }

  // ---------------------------------------------------------------------------
  // make_hardlinks
  // ---------------------------------------------------------------------------

  /** One `hardlink(master, f)` call and the bool it returned. */
  datatype Tried = Tried(src: FileInfo, dest: FileInfo, ok: bool)

  /** What a run of `hardlink` calls did: final namespace, calls in order, system calls in order. */
  datatype Linking = Linking(fs: Fs, tried: seq<Tried>, ops: seq<Op>)

  /**
   * The targets of a run of calls, in order.  This is the projection
   * `Consolidate.Dests` makes, over this version's call record, which keeps
   * the bool `hardlink` returns where deduplicator.py keeps a byte count.
   */
  function Targets(tried: seq<Tried>): (ds: seq<FileInfo>)
    ensures |ds| == |tried|
    ensures forall i :: 0 <= i < |tried| ==> ds[i] == tried[i].dest
    decreases |tried|
  {
    if |tried| == 0 then [] else [tried[0].dest] + Targets(tried[1..])
  }

  /** The position of the LAST file with the most links (the `>=` of the scan). */
  function LastMostLinked(files: seq<FileInfo>): (i: nat)
    requires |files| > 0
    ensures i < |files|
    ensures forall j :: 0 <= j < |files| ==> files[j].st.nlink <= files[i].st.nlink
    ensures forall j :: i < j < |files| ==> files[j].st.nlink < files[i].st.nlink
    decreases |files|
  {
    if |files| == 1 then 0
    else
      var k := LastMostLinked(files[..|files|-1]);
      if files[|files|-1].st.nlink >= files[k].st.nlink then |files| - 1 else k
  }

  /**
   * The scan of `make_hardlinks`: bucket the files by inode and track the
   * inode of the file with the most links so far, `>=` letting a later file
   * win a tie.  `best_inode` stays `None` only for no files.
   */
  method ScanInodes(files: seq<FileInfo>) returns (byInode: Dict<nat, FileInfo>, best: Option<nat>)
    ensures byInode == GroupBy(files, InoOf)
    ensures best.None? <==> |files| == 0
    ensures |files| > 0 ==> best == Some(files[LastMostLinked(files)].st.ino)
  {
    byInode := [];
    best := None;
    var nlinkMax := 0;
    var i := 0;
    while i < |files|
      invariant 0 <= i <= |files|
      invariant byInode == GroupBy(files[..i], InoOf)
      invariant i == 0 ==> best == None && nlinkMax == 0
      invariant i > 0 ==> (best == Some(files[LastMostLinked(files[..i])].st.ino) &&
                           nlinkMax == files[LastMostLinked(files[..i])].st.nlink)
    {
      var f := files[i];
      assert files[..i+1][..i] == files[..i];
      if f.st.nlink >= nlinkMax {
        nlinkMax := f.st.nlink;
        best := Some(f.st.ino);
      }
      byInode := Insert(byInode, f.st.ino, f);
      i := i + 1;
    }
    assert files[..i] == files;
  }

  /** The inode that survives: that of the last file with the most links. */
  function BestInode(files: seq<FileInfo>): nat
    requires |files| > 0
  {
    files[LastMostLinked(files)].st.ino
  }

  /** `by_inode[best_inode][0]`: the first file of the surviving inode. */
  function Master(files: seq<FileInfo>): (m: FileInfo)
    requires |files| > 0
    ensures m in files && InoOf(m) == BestInode(files)
  {
    var best := BestInode(files);
    LookupSpec(files, InoOf, best);
    SelectMember(files, InoOf, best, files[LastMostLinked(files)]);
    var bucket := Lookup(GroupBy(files, InoOf), best);
    SelectMember(files, InoOf, best, bucket[0]);
    bucket[0]
  }

  /** The master is the first file, in input order, of the surviving inode. */
  lemma MasterFirst(files: seq<FileInfo>) returns (k: nat)
    requires |files| > 0
    ensures k < |files| && files[k] == Master(files) && InoOf(files[k]) == BestInode(files)
    ensures forall j :: 0 <= j < k ==> InoOf(files[j]) != BestInode(files)
  {
    var best := BestInode(files);
    LookupSpec(files, InoOf, best);
    SelectMember(files, InoOf, best, files[LastMostLinked(files)]);
    k := SelectFirst(files, InoOf, best);
  }

  /** Call `hardlink(master, f)` for every target in order; a `False` is reported and the loop goes on. */
  function LinkAll(fs: Fs, master: FileInfo, targets: seq<FileInfo>): (r: Linking)
    ensures |r.tried| == |targets|
    ensures forall i :: 0 <= i < |targets| ==> r.tried[i].src == master && r.tried[i].dest == targets[i]
    ensures forall t :: t in r.tried && DevOf(t.src) != DevOf(t.dest) ==> !t.ok
    ensures r.fs.refused == fs.refused
    decreases |targets|
  {
    if |targets| == 0 then Linking(fs, [], [])
    else
      var h := Hardlink(fs, master, targets[0]);
      var rest := LinkAll(h.fs, master, targets[1..]);
      Linking(rest.fs, [Tried(master, targets[0], h.ok)] + rest.tried, h.ops + rest.ops)
  }

  /**
   * `make_hardlinks(files)`: with at most one inode, nothing; otherwise link
   * the first file of the surviving inode over every file of every other
   * inode, across devices too (where `hardlink` refuses).
   */
  function MakeHardlinks(fs: Fs, files: seq<FileInfo>): (r: Linking)
    ensures r.fs.refused == fs.refused
    ensures forall t :: t in r.tried && DevOf(t.src) != DevOf(t.dest) ==> !t.ok
  {
    var byInode := GroupBy(files, InoOf);
    if |byInode| <= 1 then Linking(fs, [], [])
    else
      var best := BestInode(files);
      LinkAll(fs, Master(files), Consolidate.OtherInodes(files, best))
  }

  /**
   * No `hardlink` call is made exactly when the files have at most one inode
   * number, and then nothing changes.
   */
  lemma MakeHardlinksTrivial(fs: Fs, files: seq<FileInfo>)
    ensures var r := MakeHardlinks(fs, files);
      && (r.tried == [] <==> |KeysOf(files, InoOf)| <= 1)
      && (|KeysOf(files, InoOf)| <= 1 ==> r.fs == fs && r.ops == [])
  {
    GroupBySpec(files, InoOf);
    var ks := KeysOf(files, InoOf);
    if |ks| > 1 {
      var best := BestInode(files);
      var j := if ks[0] != best then 0 else 1;
      var y := KeyHasItem(files, InoOf, j);
      RejectMember(files, InoOf, best, y);
      assert y in multiset(Consolidate.OtherInodes(files, best));
    }
  }

  /**
   * With two inode numbers or more, every call links the first file of the
   * last most-linked file's inode, and the targets are exactly the files of
   * the other inodes, each once.
   */
  lemma MakeHardlinksTargets(fs: Fs, files: seq<FileInfo>)
    requires |KeysOf(files, InoOf)| > 1
    ensures var r := MakeHardlinks(fs, files);
      && |files| > 0
      && (forall t :: t in r.tried ==> t.src == Master(files))
      && multiset(Targets(r.tried)) == multiset(Reject(files, InoOf, BestInode(files)))
  {
    GroupBySpec(files, InoOf);
    var r := MakeHardlinks(fs, files);
    assert Targets(r.tried) == Consolidate.OtherInodes(files, BestInode(files));
  }

  /** Every call links two files of the group with different inode numbers. */
  lemma MakeHardlinksTried(fs: Fs, files: seq<FileInfo>)
    ensures forall t :: t in MakeHardlinks(fs, files).tried ==>
              t.src in files && t.dest in files && InoOf(t.src) != InoOf(t.dest)
  {
    GroupBySpec(files, InoOf);
    if |KeysOf(files, InoOf)| > 1 {
      var best := BestInode(files);
      var targets := Consolidate.OtherInodes(files, best);
      OtherInodesIn(files, best, targets);
      LinkAllFrom(fs, Master(files), targets);
    }
  }

  /** Every file of another inode is a file of the group. */
  lemma OtherInodesIn(files: seq<FileInfo>, best: nat, targets: seq<FileInfo>)
    requires multiset(targets) == multiset(Reject(files, InoOf, best))
    ensures forall d :: d in targets ==> d in files && InoOf(d) != best
  {
    forall d | d in targets
      ensures d in files && InoOf(d) != best
    {
      RejectTarget(files, InoOf, best, targets, d);
    }
  }

  /** Every call of a run links the master over one of the targets. */
  lemma LinkAllFrom(fs: Fs, master: FileInfo, targets: seq<FileInfo>)
    ensures forall t :: t in LinkAll(fs, master, targets).tried ==> t.src == master && t.dest in targets
  {
    var r := LinkAll(fs, master, targets);
    forall t | t in r.tried
      ensures t.src == master && t.dest in targets
    {
      var i :| 0 <= i < |r.tried| && r.tried[i] == t;
    }
  }

  /**
   * On a tie in link counts this version keeps the later file, where
   * deduplicator.py keeps the earlier one.
   */
  lemma TieGoesToLast()
    ensures var a, b := FileInfo([0x61], Stat(1, 10, 1, 5, true)), FileInfo([0x62], Stat(1, 11, 1, 5, true));
      Master([a, b]) == b && Consolidate.Master([a, b]) == a
  {
    var a, b := FileInfo([0x61], Stat(1, 10, 1, 5, true)), FileInfo([0x62], Stat(1, 11, 1, 5, true));
    assert [a, b][..1] == [a];
    TwoInodes(a, b);
  }

  /** The dictionary of two files with different inode numbers. */
  lemma TwoInodes(a: FileInfo, b: FileInfo)
    requires InoOf(a) != InoOf(b)
    ensures GroupBy([a, b], InoOf) == [(InoOf(a), [a]), (InoOf(b), [b])]
  {
    assert [a, b][..1] == [a];
    assert [a][..0] == [];
    assert GroupBy([a], InoOf) == [(InoOf(a), [a])];
    assert [(InoOf(a), [a])][1..] == [];
    assert GroupBy([a, b], InoOf) == Insert([(InoOf(a), [a])], InoOf(b), b);
  }

  // ---------------------------------------------------------------------------
  // The loop with --hardlink
  // ---------------------------------------------------------------------------

  /** `make_hardlinks` on every group in turn. */
  function LinkGroups(fs: Fs, groups: seq<seq<FileInfo>>): (r: Linking)
    ensures r.fs.refused == fs.refused
    ensures forall t :: t in r.tried && DevOf(t.src) != DevOf(t.dest) ==> !t.ok
    decreases |groups|
  {
    if |groups| == 0 then Linking(fs, [], [])
    else
      var c := MakeHardlinks(fs, groups[0]);
      var rest := LinkGroups(c.fs, groups[1..]);
      Linking(rest.fs, c.tried + rest.tried, c.ops + rest.ops)
  }

  /** Every call links two files of one group with different inode numbers. */
  lemma {:induction false} LinkGroupsTried(fs: Fs, groups: seq<seq<FileInfo>>)
    ensures forall t :: t in LinkGroups(fs, groups).tried ==>
              exists g :: g in groups && t.src in g && t.dest in g && InoOf(t.src) != InoOf(t.dest)
    decreases |groups|
  {
    if |groups| > 0 {
      var c := MakeHardlinks(fs, groups[0]);
      LinkGroupsTried(c.fs, groups[1..]);
      MakeHardlinksTried(fs, groups[0]);
      forall t | t in LinkGroups(fs, groups).tried
        ensures exists g :: g in groups && t.src in g && t.dest in g && InoOf(t.src) != InoOf(t.dest)
      {
        if t in c.tried {
          assert groups[0] in groups;
        } else {
          var g :| g in groups[1..] && t.src in g && t.dest in g && InoOf(t.src) != InoOf(t.dest);
          assert g in groups;
        }
      }
    }
  }

  /** The program run with `--hardlink`: `make_hardlinks` on every group the loop finds. */
  function DupesHardlink(fs: Fs, lines: seq<seq<Byte>>, stat: StatOracle, fast: HashOracle, full: HashOracle): (r: Linking)
    ensures r.fs.refused == fs.refused
    ensures forall t :: t in r.tried && DevOf(t.src) != DevOf(t.dest) ==> !t.ok
  {
    LinkGroups(fs, Identical(lines, stat, fast, full))
  }

  /**
   * Every call of the run links two listed files of one size, with different
   * inode numbers, that the loop reported as identical.
   */
  lemma DupesHardlinkTried(fs: Fs, lines: seq<seq<Byte>>, stat: StatOracle, fast: HashOracle, full: HashOracle, t: Tried)
    requires t in DupesHardlink(fs, lines, stat, fast, full).tried
    ensures Listed(lines, stat, t.src) && Listed(lines, stat, t.dest)
    ensures SizeOf(t.src) == SizeOf(t.dest) && InoOf(t.src) != InoOf(t.dest)
  {
    var g := TriedGroup(fs, Identical(lines, stat, fast, full), t);
    IdenticalSound(lines, stat, fast, full, g);
    TriedWithin(lines, stat, g, t);
  }

  /** The group a call of the run was made in. */
  lemma TriedGroup(fs: Fs, gs: seq<seq<FileInfo>>, t: Tried) returns (g: seq<FileInfo>)
    requires t in LinkGroups(fs, gs).tried
    ensures g in gs && t.src in g && t.dest in g && InoOf(t.src) != InoOf(t.dest)
  {
    LinkGroupsTried(fs, gs);
    g :| g in gs && t.src in g && t.dest in g && InoOf(t.src) != InoOf(t.dest);
  }

  lemma TriedWithin(lines: seq<seq<Byte>>, stat: StatOracle, g: seq<FileInfo>, t: Tried)
    requires t.src in g && t.dest in g && InoOf(t.src) != InoOf(t.dest)
    requires forall x :: x in g ==> Listed(lines, stat, x)
    requires Pipeline.SameSize(g)
    ensures Listed(lines, stat, t.src) && Listed(lines, stat, t.dest)
    ensures SizeOf(t.src) == SizeOf(t.dest) && InoOf(t.src) != InoOf(t.dest)
  {
  }
}

=== FILE: files.dfy ===
/**
 * File records: the path together with the `os.stat` snapshot taken once for
 * it, and the keys the pipeline groups them by.  Both program versions use the
 * same record (`FileInfo` in deduplicator.py, `file_info` in dupes2.py).
 */
module Files {
  import opened Common

  /**
   * The fields of `os.stat` the programs read.  `regular` stands for the mode
   * test `S_ISREG(mode) and not S_ISLNK(mode)`: `os.stat` follows symbolic
   * links, so only the `S_ISREG` half can ever decide it.
   */
  datatype Stat = Stat(dev: nat, ino: nat, nlink: nat, size: nat, regular: bool)

  /** A path with its stat snapshot. */
  datatype FileInfo = FileInfo(path: Path, st: Stat)

  /** The storage identity of a file: its inode number on its device. */
  datatype Ident = Ident(ino: nat, dev: nat)

  /** `stat` as an oracle: `None` when `os.stat` raises `OSError`. */
  type StatOracle = Path -> Option<Stat>

  /** A content hash as an oracle: `None` when opening or reading raises `IOError`. */
  type HashOracle = Path -> Option<Digest>

  /** The `(st_ino, st_dev)` key. */
  function IdentOf(f: FileInfo): Ident { Ident(f.st.ino, f.st.dev) }

  /** The `st_ino` key. */
  function InoOf(f: FileInfo): nat { f.st.ino }

  /** The `st_dev` key. */
  function DevOf(f: FileInfo): nat { f.st.dev }

  /** The `st_size` key. */
  function SizeOf(f: FileInfo): nat { f.st.size }

  /** `regular_file()`. */
  predicate RegularFile(f: FileInfo) { f.st.regular }
}

=== FILE: filesystem.dfy ===
/**
 * The filesystem namespace the link step mutates: which storage identity each
 * path names.  `rename`, `link` and `unlink` are partial transitions on it,
 * failing on a missing source, on an existing target (`link` only), and
 * whenever the environment refuses the operation (a permission or read-only
 * error), which `refused` lists.  A rename always moves the name, even
 * between two links of one file, where POSIX does nothing.
 *
 * Both program versions replace a duplicate the same way: rename the target to
 * `<target>.bak`, link the survivor at the target's path, unlink the backup.
 * `ReplaceByLink` runs these three steps and stops at the first one that
 * raises.
 */
module FileSystem {
  import opened Common
  import opened Files

  datatype Op = Rename(from: Path, to: Path) | Link(src: Path, dst: Path) | Unlink(path: Path)

  datatype Fs = Fs(names: map<Path, Ident>, refused: set<Op>)

  /** The bytes of `".bak"`. */
  const BakSuffix: seq<Byte> := [0x2e, 0x62, 0x61, 0x6b]

  /** `dest + ".bak"`. */
  function BackupName(p: Path): (b: Path)
    ensures b != p
  {
    p + BakSuffix
  }

  /** One system call; `None` when it raises `OSError`. */
  function Apply(fs: Fs, op: Op): Option<Fs>
  {
    if op in fs.refused then None
    else match op
      case Rename(a, b) =>
        if a in fs.names then Some(fs.(names := (fs.names - {a})[b := fs.names[a]])) else None
      case Link(a, b) =>
        if a in fs.names && b !in fs.names then Some(fs.(names := fs.names[b := fs.names[a]])) else None
      case Unlink(a) =>
        if a in fs.names then Some(fs.(names := fs.names - {a})) else None
  }

  /** The three steps that replace `dest` by a link to `src`, in program order. */
  function Plan(src: Path, dest: Path): seq<Op>
  {
    [Rename(dest, BackupName(dest)), Link(src, dest), Unlink(BackupName(dest))]
  }

  /** What a run of steps did: the final namespace, the calls made, the call that raised. */
  datatype Steps = Steps(fs: Fs, ops: seq<Op>, failed: Option<Op>)

  /** Perform `ops` in order, stopping at the first call that raises. */
  function Run(fs: Fs, ops: seq<Op>): (r: Steps)
    ensures |r.ops| <= |ops| && r.ops == ops[..|r.ops|]
    ensures r.failed.None? ==> r.ops == ops
    ensures r.failed.Some? ==> |r.ops| > 0 && r.failed.value == r.ops[|r.ops|-1]
    ensures r.fs.refused == fs.refused
    decreases |ops|
  {
    if |ops| == 0 then Steps(fs, [], None)
    else match Apply(fs, ops[0])
      case None => Steps(fs, [ops[0]], Some(ops[0]))
      case Some(fs1) =>
        var rest := Run(fs1, ops[1..]);
        Steps(rest.fs, [ops[0]] + rest.ops, rest.failed)
  }

  /**
   * `os.rename(dest, backup); os.link(src, dest); os.unlink(backup)`.
   * The calls are made in that order and stop at the first that raises: a
   * refused rename changes nothing; a failed link leaves the target's content
   * under the backup name and nothing at the target's path; a failed unlink
   * leaves the backup in place beside the new link; a full success
   * makes the target's path name the survivor's storage, drops the backup name
   * and leaves every other path alone.
   */
  function ReplaceByLink(fs: Fs, src: Path, dest: Path): (r: Steps)
    ensures 1 <= |r.ops| <= 3 && r.ops == Plan(src, dest)[..|r.ops|]
    ensures r.failed.None? ==> r.ops == Plan(src, dest)
    ensures r.failed.Some? ==> r.failed.value == r.ops[|r.ops|-1]
    ensures r.fs.refused == fs.refused
    ensures |r.ops| == 1 ==> r.fs == fs && r.failed.Some?
    ensures |r.ops| == 2 && r.failed.Some? ==>
              dest in fs.names && r.fs.names == (fs.names - {dest})[BackupName(dest) := fs.names[dest]]
    ensures |r.ops| == 3 && r.failed.Some? ==>
              dest in fs.names && BackupName(dest) in r.fs.names &&
              r.fs.names[BackupName(dest)] == fs.names[dest]
    ensures r.failed.None? && src != BackupName(dest) ==>
              src in fs.names && dest in fs.names &&
              r.fs.names == (fs.names - {BackupName(dest)})[dest := fs.names[src]]
    ensures r.failed.None? && src == BackupName(dest) ==>
              dest in fs.names && r.fs.names == (fs.names - {src})[dest := fs.names[dest]]
  {
    RunPlan(fs, src, dest);
    Run(fs, Plan(src, dest))
  }

  /** The namespaces after each of the three steps, when they succeed. */
  lemma RunPlan(fs: Fs, src: Path, dest: Path)
    ensures var r := Run(fs, Plan(src, dest));
      && 1 <= |r.ops| <= 3
      && (|r.ops| == 1 ==> r.fs == fs && r.failed.Some?)
      && (|r.ops| == 2 && r.failed.Some? ==>
            dest in fs.names && r.fs.names == (fs.names - {dest})[BackupName(dest) := fs.names[dest]])
      && (|r.ops| == 3 && r.failed.Some? ==>
            dest in fs.names &&
            var n1 := (fs.names - {dest})[BackupName(dest) := fs.names[dest]];
            src in n1 && r.fs.names == n1[dest := n1[src]])
      && (r.failed.None? && src != BackupName(dest) ==>
            src in fs.names && dest in fs.names &&
            r.fs.names == (fs.names - {BackupName(dest)})[dest := fs.names[src]])
      && (r.failed.None? && src == BackupName(dest) ==>
            dest in fs.names && r.fs.names == (fs.names - {src})[dest := fs.names[dest]])
  {
    var bak := BackupName(dest);
    var plan := Plan(src, dest);
    var r := Run(fs, plan);
    assert plan[1..] == [Link(src, dest), Unlink(bak)];
    assert plan[1..][1..] == [Unlink(bak)];
    if Apply(fs, Rename(dest, bak)).Some? {
      var fs1 := Apply(fs, Rename(dest, bak)).value;
      assert fs1.names == (fs.names - {dest})[bak := fs.names[dest]];
      var r1 := Run(fs1, plan[1..]);
      assert r.fs == r1.fs && r.ops == [plan[0]] + r1.ops && r.failed == r1.failed;
      if Apply(fs1, Link(src, dest)).Some? {
        var fs2 := Apply(fs1, Link(src, dest)).value;
        assert fs2.names == fs1.names[dest := fs1.names[src]];
        var r2 := Run(fs2, plan[1..][1..]);
        assert r1.fs == r2.fs && r1.ops == [plan[1]] + r2.ops && r1.failed == r2.failed;
        if Apply(fs2, Unlink(bak)).Some? {
          var fs3 := Apply(fs2, Unlink(bak)).value;
          assert fs3.names == fs2.names - {bak};
          assert Run(fs3, []) == Steps(fs3, [], None);
          assert r2.fs == fs3 && r2.failed.None?;
          if src == bak {
            assert r.fs.names == (fs.names - {src})[dest := fs.names[dest]];
          } else {
            assert r.fs.names == (fs.names - {bak})[dest := fs.names[src]];
          }
        } else {
          assert r2.fs == fs2 && r2.failed.Some?;
        }
      } else {
        assert r1.fs == fs1 && r1.failed.Some? && |r1.ops| == 1;
      }
    }
  }

  /**
   * With no file at the backup name beforehand, the replacement never makes
   * storage unreachable, except the target's own storage once the target path
   * names the survivor's.
   */
  lemma ReplaceKeepsStorage(fs: Fs, src: Path, dest: Path)
    requires BackupName(dest) !in fs.names
    ensures var r := ReplaceByLink(fs, src, dest);
      forall p :: p in fs.names ==>
        fs.names[p] in r.fs.names.Values
        || (r.failed.None? && dest in fs.names && fs.names[p] == fs.names[dest]
            && src in fs.names && r.fs.names[dest] == fs.names[src])
  {
    var r := ReplaceByLink(fs, src, dest);
    var bak := BackupName(dest);
    forall p | p in fs.names
      ensures fs.names[p] in r.fs.names.Values
        || (r.failed.None? && dest in fs.names && fs.names[p] == fs.names[dest]
            && src in fs.names && r.fs.names[dest] == fs.names[src])
    {
      if |r.ops| == 1 {
        assert fs.names[p] == r.fs.names[p];
      } else if |r.ops| == 2 && r.failed.Some? {
        if p == dest {
          assert r.fs.names[bak] == fs.names[p];
        } else {
          assert p != bak;
          assert r.fs.names[p] == fs.names[p];
        }
      } else if r.failed.Some? {
        // the unlink failed: the backup and the new link are both there
        assert |r.ops| == 3;
        RunPlan(fs, src, dest);
        if p == dest {
          assert r.fs.names[bak] == fs.names[p];
        } else {
          assert p != bak;
          assert r.fs.names[p] == fs.names[p];
        }
      } else if src == bak {
        assert r.fs.names == fs.names;
        assert r.fs.names[p] == fs.names[p];
      } else {
        if p != dest {
          assert p != bak;
          assert r.fs.names[p] == fs.names[p];
        }
      }
    }
  }

  /** With the files in place and no call refused, the replacement succeeds. */
  lemma ReplaceSucceeds(fs: Fs, src: Path, dest: Path)
    requires src in fs.names && dest in fs.names
    requires src != dest && src != BackupName(dest)
    requires forall op :: op in Plan(src, dest) ==> op !in fs.refused
    ensures ReplaceByLink(fs, src, dest).failed.None?
  {
    var bak := BackupName(dest);
    var plan := Plan(src, dest);
    assert plan[0] == Rename(dest, bak) && plan[1] == Link(src, dest) && plan[2] == Unlink(bak);
    assert plan[1..] == [Link(src, dest), Unlink(bak)];
    assert plan[1..][1..] == [Unlink(bak)];
    var fs1 := Apply(fs, Rename(dest, bak)).value;
    var fs2 := Apply(fs1, Link(src, dest)).value;
    var fs3 := Apply(fs2, Unlink(bak)).value;
    assert Run(fs3, []).failed.None?;
    assert Run(fs2, plan[1..][1..]).failed.None?;
    assert Run(fs1, plan[1..]).failed.None?;
  }

  /**
   * A file already at `<dest>.bak` is overwritten by the first step: storage
   * reachable only through that name is gone after a successful replacement.
   */
  lemma ExistingBackupOverwritten()
    ensures var a: Path := [0x61];
            var b: Path := [0x62];
            var fs := Fs(map[a := Ident(1, 0), b := Ident(2, 0), BackupName(b) := Ident(3, 0)], {});
            var r := ReplaceByLink(fs, a, b);
            r.failed.None? && Ident(3, 0) in fs.names.Values && Ident(3, 0) !in r.fs.names.Values
  {
    var a: Path := [0x61];
    var b: Path := [0x62];
    var fs := Fs(map[a := Ident(1, 0), b := Ident(2, 0), BackupName(b) := Ident(3, 0)], {});
    assert a != BackupName(b) && a != b;
    ReplaceSucceeds(fs, a, b);
    var r := ReplaceByLink(fs, a, b);
    assert fs.names[BackupName(b)] == Ident(3, 0);
    assert r.fs.names == map[a := Ident(1, 0), b := Ident(1, 0)];
  }
}

=== FILE: grouping.dfy ===
/**
 * The generic "partition by a key, drop singletons" primitive of the
 * deduplication pipeline: `group_by`, `filter_solo` and `group_compose`.
 *
 * `group_by` fills a `defaultdict(list)`: each item is appended to the list of
 * its key, and the dictionary keeps its keys in order of first insertion.  The
 * dictionary is modelled as an association list built by the same insertion
 * fold (`GroupBy`), and proved equal to a reference description of the
 * partition: the distinct keys in order of first appearance (`KeysOf`), each
 * with the in-order sub-list of the items that have that key (`Select`).
 */
module Grouping {
  import opened Seqs

  // ---------------------------------------------------------------------------
  // Reference description of a partition
  // ---------------------------------------------------------------------------

  /** The distinct keys of `xs`, in order of first appearance. */
  function KeysOf<T, K(==)>(xs: seq<T>, key: T -> K): (ks: seq<K>)
    ensures |ks| <= |xs|
    ensures Distinct(ks)
    ensures forall i :: 0 <= i < |xs| ==> key(xs[i]) in ks
    decreases |xs|
  {
    if |xs| == 0 then []
    else
      var ks0 := KeysOf(xs[..|xs|-1], key);
      var k := key(xs[|xs|-1]);
      if k in ks0 then ks0 else ks0 + [k]
  }

  /** The items of `xs` whose key is `k`, in input order. */
  function Select<T, K(==)>(xs: seq<T>, key: T -> K, k: K): (r: seq<T>)
    ensures |r| <= |xs|
    ensures forall i :: 0 <= i < |r| ==> key(r[i]) == k
    decreases |xs|
  {
    if |xs| == 0 then []
    else
      var rest := Select(xs[..|xs|-1], key, k);
      if key(xs[|xs|-1]) == k then rest + [xs[|xs|-1]] else rest
  }

  /** The items of `xs` whose key is not `k`, in input order. */
  function Reject<T, K(==)>(xs: seq<T>, key: T -> K, k: K): (r: seq<T>)
    ensures |r| <= |xs|
    ensures forall i :: 0 <= i < |r| ==> key(r[i]) != k
    decreases |xs|
  {
    if |xs| == 0 then []
    else
      var rest := Reject(xs[..|xs|-1], key, k);
      if key(xs[|xs|-1]) != k then rest + [xs[|xs|-1]] else rest
  }

  lemma {:induction false} SelectMember<T, K>(xs: seq<T>, key: T -> K, k: K, y: T)
    ensures y in Select(xs, key, k) <==> y in xs && key(y) == k
    decreases |xs|
  {
    if |xs| > 0 {
      var xs0 := xs[..|xs|-1];
      SelectMember(xs0, key, k, y);
      assert xs == xs0 + [xs[|xs|-1]];
    }
  }

  lemma {:induction false} RejectMember<T, K>(xs: seq<T>, key: T -> K, k: K, y: T)
    ensures y in Reject(xs, key, k) <==> y in xs && key(y) != k
    decreases |xs|
  {
    if |xs| > 0 {
      var xs0 := xs[..|xs|-1];
      RejectMember(xs0, key, k, y);
      assert xs == xs0 + [xs[|xs|-1]];
    }
  }

  /** A key has items exactly when it is one of the keys. */
  lemma {:induction false} SelectEmpty<T, K>(xs: seq<T>, key: T -> K, k: K)
    ensures Select(xs, key, k) == [] <==> k !in KeysOf(xs, key)
    decreases |xs|
  {
    if |xs| > 0 {
      SelectEmpty(xs[..|xs|-1], key, k);
    }
  }

  /** Every item goes either to the bucket of `k` or to the rest. */
  lemma {:induction false} SelectRejectSplit<T, K>(xs: seq<T>, key: T -> K, k: K)
    ensures multiset(xs) == multiset(Select(xs, key, k)) + multiset(Reject(xs, key, k))
    decreases |xs|
  {
    if |xs| > 0 {
      var xs0 := xs[..|xs|-1];
      SelectRejectSplit(xs0, key, k);
      SplitStep(xs, Select(xs, key, k), Reject(xs, key, k), Select(xs0, key, k), Reject(xs0, key, k), key(xs[|xs|-1]) == k);
    }
  }

  lemma SplitStep<T>(xs: seq<T>, s: seq<T>, r: seq<T>, s0: seq<T>, r0: seq<T>, sel: bool)
    requires |xs| > 0
    requires multiset(xs[..|xs|-1]) == multiset(s0) + multiset(r0)
    requires s == if sel then s0 + [xs[|xs|-1]] else s0
    requires r == if sel then r0 else r0 + [xs[|xs|-1]]
    ensures multiset(xs) == multiset(s) + multiset(r)
  {
    assert xs == xs[..|xs|-1] + [xs[|xs|-1]];
  }

  /** A member of a rearrangement of the rejected items is an item with another key. */
  lemma RejectTarget<T, K>(xs: seq<T>, key: T -> K, k: K, ts: seq<T>, t: T)
    requires multiset(ts) == multiset(Reject(xs, key, k)) && t in ts
    ensures t in xs && key(t) != k
  {
    assert t in multiset(Reject(xs, key, k));
    RejectMember(xs, key, k, t);
  }

  /** There is at most one key exactly when all items share their key. */
  lemma {:induction false} SingleKey<T, K>(xs: seq<T>, key: T -> K)
    ensures |KeysOf(xs, key)| <= 1 <==> forall i, j :: 0 <= i < |xs| && 0 <= j < |xs| ==> key(xs[i]) == key(xs[j])
  {
    var ks := KeysOf(xs, key);
    if |ks| <= 1 {
      forall i, j | 0 <= i < |xs| && 0 <= j < |xs|
        ensures key(xs[i]) == key(xs[j])
      {
        assert key(xs[i]) in ks && key(xs[j]) in ks;
      }
    } else {
      assert ks[0] != ks[1];
      SelectEmpty(xs, key, ks[0]);
      SelectEmpty(xs, key, ks[1]);
      var a := Select(xs, key, ks[0])[0];
      var b := Select(xs, key, ks[1])[0];
      SelectMember(xs, key, ks[0], a);
      SelectMember(xs, key, ks[1], b);
      var i :| 0 <= i < |xs| && xs[i] == a;
      var j :| 0 <= j < |xs| && xs[j] == b;
      assert key(xs[i]) != key(xs[j]);
    }
  }

  // ---------------------------------------------------------------------------
  // The dictionary that group_by builds
  // ---------------------------------------------------------------------------

  /** A `defaultdict(list)`: keys with their lists, in order of first insertion. */
  type Dict<K, T> = seq<(K, seq<T>)>

  /** The keys of a dictionary, in its order. */
  function DictKeys<K, T>(d: Dict<K, T>): (ks: seq<K>)
    ensures |ks| == |d|
    ensures forall i :: 0 <= i < |d| ==> ks[i] == d[i].0
  {
    if |d| == 0 then [] else [d[0].0] + DictKeys(d[1..])
  }

  /** The lists of a dictionary, in its order (`dict.values()`). */
  function Values<K, T>(d: Dict<K, T>): (vs: seq<seq<T>>)
    ensures |vs| == |d|
    ensures forall i :: 0 <= i < |d| ==> vs[i] == d[i].1
  {
    if |d| == 0 then [] else [d[0].1] + Values(d[1..])
  }

  /** `d[k].append(x)`: extend the list of `k`, or add `k` at the end. */
  function Insert<K(==), T>(d: Dict<K, T>, k: K, x: T): (r: Dict<K, T>)
    ensures |d| <= |r| <= |d| + 1
    decreases |d|
  {
    if |d| == 0 then [(k, [x])]
    else if d[0].0 == k then [(k, d[0].1 + [x])] + d[1..]
    else [d[0]] + Insert(d[1..], k, x)
  }

  /** `group_by`: append every item, in input order, to the list of its key. */
  function GroupBy<T, K(==)>(xs: seq<T>, key: T -> K): (d: Dict<K, T>)
    ensures |d| <= |xs|
    decreases |xs|
  {
    if |xs| == 0 then []
    else Insert(GroupBy(xs[..|xs|-1], key), key(xs[|xs|-1]), xs[|xs|-1])
  }

  /** `group_by(...).values()`. */
  function Partition<T, K(==)>(xs: seq<T>, key: T -> K): seq<seq<T>>
  {
    Values(GroupBy(xs, key))
  }

  /** `d[k]` for a key that may be absent from a `defaultdict(list)`. */
  function Lookup<K(==), T>(d: Dict<K, T>, k: K): seq<T>
    decreases |d|
  {
    if |d| == 0 then [] else if d[0].0 == k then d[0].1 else Lookup(d[1..], k)
  }

  /** The dictionary without the entry of `k` (the `continue` on one key). */
  function Without<K(==), T>(d: Dict<K, T>, k: K): (r: Dict<K, T>)
    ensures |r| <= |d|
    ensures forall i :: 0 <= i < |r| ==> r[i].0 != k
    decreases |d|
  {
    if |d| == 0 then []
    else if d[0].0 == k then Without(d[1..], k)
    else [d[0]] + Without(d[1..], k)
  }

  lemma {:induction false} InsertSpec<K, T>(d: Dict<K, T>, k: K, x: T)
    requires Distinct(DictKeys(d))
    ensures k in DictKeys(d) ==> |Insert(d, k, x)| == |d|
    ensures k !in DictKeys(d) ==> |Insert(d, k, x)| == |d| + 1 && Insert(d, k, x)[|d|] == (k, [x])
    ensures forall i :: 0 <= i < |d| ==>
              Insert(d, k, x)[i] == (if d[i].0 == k then (k, d[i].1 + [x]) else d[i])
    decreases |d|
  {
    if |d| > 0 {
      var ks := DictKeys(d);
      assert DictKeys(d[1..]) == ks[1..];
      InsertSpec(d[1..], k, x);
      if d[0].0 == k {
        assert forall i :: 0 < i < |d| ==> d[i].0 != k by {
          assert forall i :: 0 < i < |d| ==> ks[0] != ks[i];
        }
      }
    }
  }

  /** Adding one item to a prefix adds it to the bucket of its key only. */
  lemma SelectSnoc<T, K>(xs: seq<T>, key: T -> K, k: K)
    requires |xs| > 0
    ensures Select(xs, key, k)
         == Select(xs[..|xs|-1], key, k) + (if key(xs[|xs|-1]) == k then [xs[|xs|-1]] else [])
  {
  }

  /** The head of the items of `k` is the first item, in input order, whose key is `k`. */
  lemma {:induction false} SelectFirst<T, K>(xs: seq<T>, key: T -> K, k: K) returns (i: nat)
    requires |Select(xs, key, k)| > 0
    ensures i < |xs| && xs[i] == Select(xs, key, k)[0] && key(xs[i]) == k
    ensures forall j :: 0 <= j < i ==> key(xs[j]) != k
    decreases |xs|
  {
    var xs0 := xs[..|xs|-1];
    if |Select(xs0, key, k)| > 0 {
      i := SelectFirst(xs0, key, k);
    } else {
      i := |xs| - 1;
      forall j | 0 <= j < i
        ensures key(xs[j]) != k
      {
        assert xs[j] == xs0[j];
        SelectMember(xs0, key, k, xs[j]);
      }
    }
  }

  /** Inserting adds the key at the end when it is new, and keeps the keys otherwise. */
  lemma {:induction false} InsertKeys<K, T>(d: Dict<K, T>, k: K, x: T)
    ensures DictKeys(Insert(d, k, x)) == if k in DictKeys(d) then DictKeys(d) else DictKeys(d) + [k]
    decreases |d|
  {
    if |d| > 0 {
      InsertKeys(d[1..], k, x);
      assert DictKeys(d) == [d[0].0] + DictKeys(d[1..]);
    }
  }

  lemma {:induction false} GroupByKeys<T, K>(xs: seq<T>, key: T -> K)
    ensures DictKeys(GroupBy(xs, key)) == KeysOf(xs, key)
    decreases |xs|
  {
    if |xs| > 0 {
      var xs0 := xs[..|xs|-1];
      GroupByKeys(xs0, key);
      InsertKeys(GroupBy(xs0, key), key(xs[|xs|-1]), xs[|xs|-1]);
    }
  }

  /** The insertion fold builds exactly the reference partition. */
  lemma {:induction false} GroupBySpec<T, K>(xs: seq<T>, key: T -> K)
    ensures DictKeys(GroupBy(xs, key)) == KeysOf(xs, key)
    ensures forall i :: 0 <= i < |GroupBy(xs, key)| ==>
              GroupBy(xs, key)[i].1 == Select(xs, key, GroupBy(xs, key)[i].0)
    decreases |xs|
  {
    GroupByKeys(xs, key);
    if |xs| > 0 {
      var xs0 := xs[..|xs|-1];
      var x := xs[|xs|-1];
      var k := key(x);
      var d0 := GroupBy(xs0, key);
      GroupBySpec(xs0, key);
      InsertSpec(d0, k, x);
      var d := Insert(d0, k, x);
      assert GroupBy(xs, key) == d;
      forall i | 0 <= i < |d|
        ensures d[i].1 == Select(xs, key, d[i].0)
      {
        SelectSnoc(xs, key, d[i].0);
        if i == |d0| {
          SelectEmpty(xs0, key, k);
        }
      }
    }
  }

  /** `group_by(...).values()` lists, bucket by bucket, the items of each key. */
  lemma PartitionSpec<T, K>(xs: seq<T>, key: T -> K)
    ensures |Partition(xs, key)| == |KeysOf(xs, key)|
    ensures forall i :: 0 <= i < |KeysOf(xs, key)| ==>
              Partition(xs, key)[i] == Select(xs, key, KeysOf(xs, key)[i])
  {
    GroupBySpec(xs, key);
  }

  /** Looking a key up in the dictionary gives its items (`[]` when absent). */
  lemma LookupSpec<T, K>(xs: seq<T>, key: T -> K, k: K)
    ensures Lookup(GroupBy(xs, key), k) == Select(xs, key, k)
  {
    GroupBySpec(xs, key);
    var d := GroupBy(xs, key);
    if k in KeysOf(xs, key) {
      var i :| 0 <= i < |d| && d[i].0 == k;
      LookupAt(d, i);
    } else {
      LookupAbsent(d, k);
      SelectEmpty(xs, key, k);
    }
  }

  lemma {:induction false} LookupAt<K, T>(d: Dict<K, T>, i: nat)
    requires i < |d|
    requires Distinct(DictKeys(d))
    ensures Lookup(d, d[i].0) == d[i].1
    decreases i
  {
    if i > 0 {
      assert DictKeys(d[1..]) == DictKeys(d)[1..];
      assert DictKeys(d)[0] != DictKeys(d)[i];
      LookupAt(d[1..], i - 1);
    }
  }

  lemma {:induction false} LookupAbsent<K, T>(d: Dict<K, T>, k: K)
    requires k !in DictKeys(d)
    ensures Lookup(d, k) == []
    decreases |d|
  {
    if |d| > 0 {
      assert DictKeys(d[1..]) == DictKeys(d)[1..];
      LookupAbsent(d[1..], k);
    }
  }

  /** The bucket an item lands in: the one of its key. */
  lemma BucketOf<T, K>(xs: seq<T>, key: T -> K, y: T) returns (j: int)
    requires y in xs
    ensures 0 <= j < |Partition(xs, key)| && j < |KeysOf(xs, key)|
    ensures KeysOf(xs, key)[j] == key(y) && y in Partition(xs, key)[j]
  {
    PartitionSpec(xs, key);
    var ks := KeysOf(xs, key);
    var i :| 0 <= i < |xs| && xs[i] == y;
    assert key(xs[i]) in ks;
    j :| 0 <= j < |ks| && ks[j] == key(y);
    SelectMember(xs, key, key(y), y);
  }

  /** Every key has an item. */
  lemma KeyHasItem<T, K>(xs: seq<T>, key: T -> K, j: int) returns (y: T)
    requires 0 <= j < |KeysOf(xs, key)|
    ensures y in xs && key(y) == KeysOf(xs, key)[j]
  {
    var k := KeysOf(xs, key)[j];
    SelectEmpty(xs, key, k);
    y := Select(xs, key, k)[0];
    SelectMember(xs, key, k, y);
  }

  /** No bucket is empty. */
  lemma PartitionNonEmpty<T, K>(xs: seq<T>, key: T -> K)
    ensures forall b :: b in Partition(xs, key) ==> |b| > 0
  {
    PartitionSpec(xs, key);
    var ks := KeysOf(xs, key);
    forall b | b in Partition(xs, key)
      ensures |b| > 0
    {
      var i :| 0 <= i < |ks| && Partition(xs, key)[i] == b;
      SelectEmpty(xs, key, ks[i]);
    }
  }

  /** Appending one item to its list adds exactly that item. */
  lemma {:induction false} InsertAdds<K, T>(d: Dict<K, T>, k: K, x: T)
    ensures multiset(Flatten(Values(Insert(d, k, x)))) == multiset(Flatten(Values(d))) + multiset{x}
    decreases |d|
  {
    if |d| == 0 {
      assert Values(Insert(d, k, x)) == [[x]];
      assert Flatten([[x]]) == [x] + Flatten([[x]][1..]);
    } else if d[0].0 == k {
      var r := Insert(d, k, x);
      assert r[1..] == d[1..];
      assert Flatten(Values(r)) == (d[0].1 + [x]) + Flatten(Values(d[1..]));
      assert Flatten(Values(d)) == d[0].1 + Flatten(Values(d[1..]));
    } else {
      var r := Insert(d, k, x);
      assert r[1..] == Insert(d[1..], k, x);
      InsertAdds(d[1..], k, x);
      assert Flatten(Values(r)) == d[0].1 + Flatten(Values(r[1..]));
      assert Flatten(Values(d)) == d[0].1 + Flatten(Values(d[1..]));
    }
  }

  /** Every input item lands in exactly one bucket (counting repetitions). */
  lemma {:induction false} PartitionCovers<T, K>(xs: seq<T>, key: T -> K)
    ensures multiset(Flatten(Partition(xs, key))) == multiset(xs)
    decreases |xs|
  {
    if |xs| > 0 {
      var xs0 := xs[..|xs|-1];
      var x := xs[|xs|-1];
      PartitionCovers(xs0, key);
      InsertAdds(GroupBy(xs0, key), key(x), x);
      assert GroupBy(xs, key) == Insert(GroupBy(xs0, key), key(x), x);
      CoversStep(Flatten(Partition(xs, key)), Flatten(Partition(xs0, key)), xs, x);
    }
  }

  lemma CoversStep<T>(p: seq<T>, p0: seq<T>, xs: seq<T>, x: T)
    requires |xs| > 0 && x == xs[|xs|-1]
    requires multiset(p) == multiset(p0) + multiset{x}
    requires multiset(p0) == multiset(xs[..|xs|-1])
    ensures multiset(p) == multiset(xs)
  {
    assert xs == xs[..|xs|-1] + [x];
  }

  lemma {:induction false} WithoutInsertSame<K, T>(d: Dict<K, T>, k: K, x: T)
    ensures Without(Insert(d, k, x), k) == Without(d, k)
    decreases |d|
  {
    if |d| > 0 && d[0].0 != k {
      var r := Insert(d, k, x);
      assert r[1..] == Insert(d[1..], k, x);
      WithoutInsertSame(d[1..], k, x);
    } else if |d| > 0 {
      assert Insert(d, k, x)[1..] == d[1..];
    }
  }

  lemma {:induction false} WithoutInsertOther<K, T>(d: Dict<K, T>, k': K, x: T, k: K)
    requires k' != k
    ensures multiset(Flatten(Values(Without(Insert(d, k', x), k))))
         == multiset(Flatten(Values(Without(d, k)))) + multiset{x}
    decreases |d|
  {
    var r := Insert(d, k', x);
    if |d| == 0 {
      assert Without(r, k) == [(k', [x])];
      assert Values([(k', [x])]) == [[x]];
      assert Flatten([[x]]) == [x] + Flatten([[x]][1..]);
    } else if d[0].0 == k' {
      assert r[1..] == d[1..];
      assert Without(r, k) == [(k', d[0].1 + [x])] + Without(d[1..], k);
      assert Without(d, k) == [d[0]] + Without(d[1..], k);
      assert Flatten(Values(Without(r, k))) == (d[0].1 + [x]) + Flatten(Values(Without(d[1..], k)));
      assert Flatten(Values(Without(d, k))) == d[0].1 + Flatten(Values(Without(d[1..], k)));
    } else {
      assert r[1..] == Insert(d[1..], k', x);
      WithoutInsertOther(d[1..], k', x, k);
      if d[0].0 == k {
        assert Without(r, k) == Without(r[1..], k);
      } else {
        assert Without(r, k) == [d[0]] + Without(r[1..], k);
        assert Without(d, k) == [d[0]] + Without(d[1..], k);
        assert Flatten(Values(Without(r, k))) == d[0].1 + Flatten(Values(Without(r[1..], k)));
        assert Flatten(Values(Without(d, k))) == d[0].1 + Flatten(Values(Without(d[1..], k)));
      }
    }
  }

  /** Skipping the list of one key visits exactly the items with another key. */
  lemma {:induction false} WithoutCovers<T, K>(xs: seq<T>, key: T -> K, k: K)
    ensures multiset(Flatten(Values(Without(GroupBy(xs, key), k)))) == multiset(Reject(xs, key, k))
    decreases |xs|
  {
    if |xs| > 0 {
      var xs0 := xs[..|xs|-1];
      var x := xs[|xs|-1];
      WithoutCovers(xs0, key, k);
      if key(x) == k {
        WithoutInsertSame(GroupBy(xs0, key), k, x);
      } else {
        WithoutInsertOther(GroupBy(xs0, key), key(x), x, k);
      }
    }
  }

  // ---------------------------------------------------------------------------
  // filter_solo and group_compose
  // ---------------------------------------------------------------------------

  /** `filter_solo`: keep the groups with more than one member, in order. */
  function FilterSolo<T>(gs: seq<seq<T>>): (r: seq<seq<T>>)
    ensures |r| <= |gs|
    ensures forall i :: 0 <= i < |r| ==> |r[i]| > 1
    decreases |gs|
  {
    if |gs| == 0 then []
    else if |gs[0]| > 1 then [gs[0]] + FilterSolo(gs[1..])
    else FilterSolo(gs[1..])
  }

  /** A sequence holding two different values has more than one member. */
  lemma TwoMembers<T>(g: seq<T>, x: T, y: T)
    requires x in g && y in g && x != y
    ensures |g| > 1
  {
    var i :| 0 <= i < |g| && g[i] == x;
    var j :| 0 <= j < |g| && g[j] == y;
    assert i != j;
  }

  /** A group survives `filter_solo` exactly when it has more than one member. */
  lemma {:induction false} FilterSoloMember<T>(gs: seq<seq<T>>, g: seq<T>)
    ensures g in FilterSolo(gs) <==> g in gs && |g| > 1
    decreases |gs|
  {
    if |gs| > 0 {
      FilterSoloMember(gs[1..], g);
      assert g in gs <==> g == gs[0] || g in gs[1..];
    }
  }

  /** Each surviving group keeps its multiplicity; the others vanish. */
  lemma {:induction false} FilterSoloCount<T>(gs: seq<seq<T>>, g: seq<T>)
    ensures multiset(FilterSolo(gs))[g] == if |g| > 1 then multiset(gs)[g] else 0
    decreases |gs|
  {
    if |gs| > 0 {
      FilterSoloCount(gs[1..], g);
      assert gs == [gs[0]] + gs[1..];
    }
  }

  /** `filter_solo` works group by group, so it keeps the input order. */
  lemma {:induction false} FilterSoloAppend<T>(a: seq<seq<T>>, b: seq<seq<T>>)
    ensures FilterSolo(a + b) == FilterSolo(a) + FilterSolo(b)
    decreases |a|
  {
    if |a| == 0 {
      assert a + b == b;
    } else {
      assert (a + b)[1..] == a[1..] + b;
      FilterSoloAppend(a[1..], b);
    }
  }

  /** Filtering twice filters nothing more. */
  lemma {:induction false} FilterSoloIdempotent<T>(gs: seq<seq<T>>)
    ensures FilterSolo(FilterSolo(gs)) == FilterSolo(gs)
    decreases |gs|
  {
    if |gs| > 0 {
      FilterSoloIdempotent(gs[1..]);
    }
  }

  /** One pass of `group_compose`: regroup every group, keep the non-singletons. */
  function Refine<T>(data: seq<seq<T>>, stage: seq<T> -> seq<seq<T>>): (r: seq<seq<T>>)
    ensures forall i :: 0 <= i < |r| ==> |r[i]| > 1
    decreases |data|
  {
    if |data| == 0 then [] else FilterSolo(stage(data[0])) + Refine(data[1..], stage)
  }

  /** `group_compose`: apply the stages in turn, filtering singletons after each. */
  function GroupCompose<T>(data: seq<seq<T>>, stages: seq<seq<T> -> seq<seq<T>>>): (r: seq<seq<T>>)
    ensures |stages| > 0 ==> forall i :: 0 <= i < |r| ==> |r[i]| > 1
    decreases |stages|
  {
    if |stages| == 0 then data else GroupCompose(Refine(data, stages[0]), stages[1..])
  }

  /** A pass leaves no single file, so filtering its output again changes nothing. */
  lemma RefineFiltered<T>(data: seq<seq<T>>, stage: seq<T> -> seq<seq<T>>)
    ensures FilterSolo(Refine(data, stage)) == Refine(data, stage)
  {
    var r := Refine(data, stage);
    FilterSoloNoSingles(r);
  }

  /** Keeping the groups of more than one member changes nothing when there is no other kind. */
  lemma {:induction false} FilterSoloNoSingles<T>(gs: seq<seq<T>>)
    requires forall i :: 0 <= i < |gs| ==> |gs[i]| > 1
    ensures FilterSolo(gs) == gs
    decreases |gs|
  {
    if |gs| > 0 {
      FilterSoloNoSingles(gs[1..]);
    }
  }

  /** A refined group is a non-singleton group some stage produced from an input group. */
  lemma {:induction false} RefineMember<T>(data: seq<seq<T>>, stage: seq<T> -> seq<seq<T>>, g: seq<T>)
    ensures g in Refine(data, stage) <==> |g| > 1 && exists d :: d in data && g in stage(d)
    decreases |data|
  {
    if |data| > 0 {
      RefineMember(data[1..], stage, g);
      FilterSoloMember(stage(data[0]), g);
      assert forall d :: d in data <==> d == data[0] || d in data[1..];
    }
  }

  /** The input group a refined group came from. */
  lemma RefineOrigin<T>(data: seq<seq<T>>, stage: seq<T> -> seq<seq<T>>, g: seq<T>) returns (d: seq<T>)
    requires g in Refine(data, stage)
    ensures d in data && g in stage(d) && |g| > 1
  {
    RefineMember(data, stage, g);
    d :| d in data && g in stage(d);
  }

  /** Running stages `s1` and then `s2` is running `s1 + s2`. */
  lemma {:induction false} GroupComposeAppend<T>(data: seq<seq<T>>, s1: seq<seq<T> -> seq<seq<T>>>, s2: seq<seq<T> -> seq<seq<T>>>)
    ensures GroupCompose(data, s1 + s2) == GroupCompose(GroupCompose(data, s1), s2)
    decreases |s1|
  {
    if |s1| == 0 {
      assert s1 + s2 == s2;
    } else {
      assert (s1 + s2)[0] == s1[0];
      assert (s1 + s2)[1..] == s1[1..] + s2;
      GroupComposeAppend(Refine(data, s1[0]), s1[1..], s2);
    }
  }

  /** Three stages make three passes. */
  lemma GroupComposeThree<T>(data: seq<seq<T>>, a: seq<T> -> seq<seq<T>>, b: seq<T> -> seq<seq<T>>, c: seq<T> -> seq<seq<T>>)
    ensures GroupCompose(data, [a, b, c]) == Refine(Refine(Refine(data, a), b), c)
  {
    var l3 := Refine(Refine(Refine(data, a), b), c);
    assert [a, b, c][1..] == [b, c];
    assert [b, c][1..] == [c];
    assert [c][1..] == [];
    assert GroupCompose(l3, []) == l3;
    assert GroupCompose(Refine(Refine(data, a), b), [c]) == l3;
  }
}

=== FILE: hashgrouping.dfy ===
/**
 * The hash stage both program versions share.  Files are first put in
 * classes of the same storage identity (the class key: `(st_ino, st_dev)` in
 * deduplicator.py, `st_ino` alone in dupes2.py).  With more than one class,
 * the hash function is called once per class, on the class's first member,
 * and whole classes are appended to the list of their digest; a class whose
 * hash raises `IOError` is skipped.
 *
 * Appending whole classes to `by_hash[h]` in class order is the same as
 * partitioning the hashable classes by their digest and concatenating each
 * bucket, which is how `HashClasses` is written.  The hash function itself is
 * an oracle; the calls made to it are returned as a trace (`hashed`).
 */
module HashGrouping {
  import opened Common
  import opened Seqs
  import opened Grouping
  import opened Files

  /** The groups a hash stage returns, and the records whose path it hashed, in call order. */
  datatype HashRun = HashRun(groups: seq<seq<FileInfo>>, hashed: seq<FileInfo>)

  /** A class is hashed through the path of its first member. */
  function ClassDigest(hash: HashOracle): seq<FileInfo> -> Option<Digest>
  {
    (c: seq<FileInfo>) => if |c| == 0 then None else hash(c[0].path)
  }

  /** The classes whose hash did not raise, in order. */
  function Hashable(classes: seq<seq<FileInfo>>, hash: HashOracle): (r: seq<seq<FileInfo>>)
    ensures forall c :: c in r <==> c in classes && ClassDigest(hash)(c).Some?
    decreases |classes|
  {
    if |classes| == 0 then []
    else if ClassDigest(hash)(classes[0]).Some? then [classes[0]] + Hashable(classes[1..], hash)
    else Hashable(classes[1..], hash)
  }

  /** The first member of every class: the record each hash call is made on. */
  function Firsts(classes: seq<seq<FileInfo>>): (r: seq<FileInfo>)
    requires forall c :: c in classes ==> |c| > 0
    ensures |r| == |classes|
    ensures forall i :: 0 <= i < |r| ==> r[i] == classes[i][0]
    decreases |classes|
  {
    if |classes| == 0 then [] else [classes[0][0]] + Firsts(classes[1..])
  }

  /** The identity classes, in order of first appearance. */
  function Classes<K(==)>(files: seq<FileInfo>, classKey: FileInfo -> K): seq<seq<FileInfo>>
  {
    Partition(files, classKey)
  }

  /** The hashable classes, bucketed by digest in order of first appearance. */
  function Buckets<K(==)>(files: seq<FileInfo>, classKey: FileInfo -> K, hash: HashOracle): seq<seq<seq<FileInfo>>>
  {
    Partition(Hashable(Classes(files, classKey), hash), ClassDigest(hash))
  }

  /** The digest of each bucket. */
  function Digests<K(==)>(files: seq<FileInfo>, classKey: FileInfo -> K, hash: HashOracle): seq<Option<Digest>>
  {
    KeysOf(Hashable(Classes(files, classKey), hash), ClassDigest(hash))
  }

  /** The multi-class branch of `group_by_hash`: hash every class once, merge classes by digest. */
  function HashClasses<K(==)>(files: seq<FileInfo>, classKey: FileInfo -> K, hash: HashOracle): HashRun
  {
    PartitionNonEmpty(files, classKey);
    HashRun(MapFlatten(Buckets(files, classKey, hash)), Firsts(Classes(files, classKey)))
  }

  /** The first member, in input order, of the class of `x`. */
  function Rep<K(==)>(files: seq<FileInfo>, classKey: FileInfo -> K, x: FileInfo): (r: FileInfo)
    requires x in files
    ensures r in files && classKey(r) == classKey(x)
  {
    SelectMember(files, classKey, classKey(x), x);
    var c := Select(files, classKey, classKey(x));
    SelectMember(files, classKey, classKey(x), c[0]);
    c[0]
  }

  /** The digest `x` is grouped under: the hash of its class's first member. */
  function RepDigest<K(==)>(files: seq<FileInfo>, classKey: FileInfo -> K, hash: HashOracle, x: FileInfo): Option<Digest>
    requires x in files
  {
    hash(Rep(files, classKey, x).path)
  }

  // ---------------------------------------------------------------------------
  // Predicates on the groups a stage returns
  // ---------------------------------------------------------------------------

  /** Every member of `g` is a member of `d`. */
  ghost predicate SubGroup(g: seq<FileInfo>, d: seq<FileInfo>)
  {
    forall x :: x in g ==> x in d
  }

  /** `g` holds the whole class, in `d`, of each of its members. */
  ghost predicate ClassClosed<K>(g: seq<FileInfo>, d: seq<FileInfo>, classKey: FileInfo -> K)
  {
    forall x, y :: x in g && y in d && classKey(x) == classKey(y) ==> y in g
  }

  /**
   * `x` and `y` were matched by `hash`: each has a class-mate in `g` whose
   * path hashed without error, to the same digest.
   */
  ghost predicate Vouched<K>(g: seq<FileInfo>, classKey: FileInfo -> K, hash: HashOracle, x: FileInfo, y: FileInfo)
  {
    exists rx, ry :: rx in g && ry in g && classKey(rx) == classKey(x) && classKey(ry) == classKey(y)
                     && hash(rx.path).Some? && hash(rx.path) == hash(ry.path)
  }

  /** Any two members of `g` are in one class or were matched by `hash`. */
  ghost predicate HashConsistent<K>(g: seq<FileInfo>, classKey: FileInfo -> K, hash: HashOracle)
  {
    forall x, y :: x in g && y in g ==> classKey(x) == classKey(y) || Vouched(g, classKey, hash, x, y)
  }

  /** A group that is a single class is consistent with any hash. */
  lemma OneClassConsistent<K>(g: seq<FileInfo>, classKey: FileInfo -> K, hash: HashOracle)
    requires |KeysOf(g, classKey)| <= 1
    ensures HashConsistent(g, classKey, hash)
  {
    SingleKey(g, classKey);
    forall x, y | x in g && y in g
      ensures classKey(x) == classKey(y)
    {
      var i :| 0 <= i < |g| && g[i] == x;
      var j :| 0 <= j < |g| && g[j] == y;
    }
  }

  /** Consistency is kept by a sub-group that keeps whole classes. */
  lemma ConsistentSubGroup<K>(d: seq<FileInfo>, g: seq<FileInfo>, classKey: FileInfo -> K, hash: HashOracle)
    requires HashConsistent(d, classKey, hash)
    requires SubGroup(g, d) && ClassClosed(g, d, classKey)
    ensures HashConsistent(g, classKey, hash)
  {
    forall x, y | x in g && y in g && classKey(x) != classKey(y)
      ensures Vouched(g, classKey, hash, x, y)
    {
      assert Vouched(d, classKey, hash, x, y);
      var rx, ry :| rx in d && ry in d && classKey(rx) == classKey(x) && classKey(ry) == classKey(y)
                    && hash(rx.path).Some? && hash(rx.path) == hash(ry.path);
      assert rx in g && ry in g;
    }
  }

  // ---------------------------------------------------------------------------
  // What the multi-class branch returns
  // ---------------------------------------------------------------------------

  /** A class holding `x` is the class of `x`'s key. */
  lemma ClassOfMember<K>(files: seq<FileInfo>, classKey: FileInfo -> K, c: seq<FileInfo>, x: FileInfo)
    requires c in Classes(files, classKey) && x in c
    ensures c == Select(files, classKey, classKey(x))
  {
    PartitionSpec(files, classKey);
    var ks := KeysOf(files, classKey);
    var i :| 0 <= i < |ks| && Classes(files, classKey)[i] == c;
    var k :| 0 <= k < |c| && c[k] == x;
  }

  /** Each hash call is made once per class, on its first member, in class order. */
  lemma HashClassesCalls<K>(files: seq<FileInfo>, classKey: FileInfo -> K, hash: HashOracle)
    ensures var r := HashClasses(files, classKey, hash);
      && |r.hashed| == |KeysOf(files, classKey)|
      && forall i :: 0 <= i < |r.hashed| ==>
           |Select(files, classKey, KeysOf(files, classKey)[i])| > 0 &&
           r.hashed[i] == Select(files, classKey, KeysOf(files, classKey)[i])[0]
  {
    PartitionSpec(files, classKey);
    var ks := KeysOf(files, classKey);
    forall i | 0 <= i < |ks|
      ensures |Select(files, classKey, ks[i])| > 0
    {
      SelectEmpty(files, classKey, ks[i]);
    }
  }

  /** A member of a returned group, and the class it came with. */
  lemma BucketMember<K>(files: seq<FileInfo>, classKey: FileInfo -> K, hash: HashOracle, j: int, x: FileInfo)
    requires 0 <= j < |Buckets(files, classKey, hash)|
    requires x in Flatten(Buckets(files, classKey, hash)[j])
    ensures |Digests(files, classKey, hash)| == |Buckets(files, classKey, hash)|
    ensures x in files
    ensures Select(files, classKey, classKey(x)) in Buckets(files, classKey, hash)[j]
    ensures RepDigest(files, classKey, hash, x) == Digests(files, classKey, hash)[j]
    ensures Digests(files, classKey, hash)[j].Some?
  {
    var ok := Hashable(Classes(files, classKey), hash);
    var ds := Digests(files, classKey, hash);
    var bs := Buckets(files, classKey, hash);
    PartitionSpec(ok, ClassDigest(hash));
    FlattenMember(bs[j], x);
    var c :| c in bs[j] && x in c;
    SelectMember(ok, ClassDigest(hash), ds[j], c);
    ClassOfMember(files, classKey, c, x);
    SelectMember(files, classKey, classKey(x), x);
  }

  /** A returned group holds every class-mate, in the input, of each of its members. */
  lemma BucketClosed<K>(files: seq<FileInfo>, classKey: FileInfo -> K, hash: HashOracle, j: int)
    requires 0 <= j < |Buckets(files, classKey, hash)|
    ensures ClassClosed(Flatten(Buckets(files, classKey, hash)[j]), files, classKey)
  {
    var b := Buckets(files, classKey, hash)[j];
    forall x, y | x in Flatten(b) && y in files && classKey(x) == classKey(y)
      ensures y in Flatten(b)
    {
      BucketMember(files, classKey, hash, j, x);
      SelectMember(files, classKey, classKey(x), y);
      FlattenMember(b, y);
    }
  }

  /** Every bucket has a digest: classes whose hash raised are in no bucket. */
  lemma DigestsSome<K>(files: seq<FileInfo>, classKey: FileInfo -> K, hash: HashOracle, j: int)
    requires 0 <= j < |Digests(files, classKey, hash)|
    ensures Digests(files, classKey, hash)[j].Some?
  {
    var c := KeyHasItem(Hashable(Classes(files, classKey), hash), ClassDigest(hash), j);
  }

  /**
   * Every returned group keeps whole classes of the input, all its members
   * carry its digest, and two groups never carry the same digest.
   */
  lemma HashClassesGroups<K>(files: seq<FileInfo>, classKey: FileInfo -> K, hash: HashOracle)
    ensures var r := HashClasses(files, classKey, hash);
      && |r.groups| == |Digests(files, classKey, hash)|
      && Distinct(Digests(files, classKey, hash))
      && (forall j :: 0 <= j < |r.groups| ==> Digests(files, classKey, hash)[j].Some?)
      && (forall j :: 0 <= j < |r.groups| ==>
            forall x :: x in r.groups[j] ==>
              x in files && RepDigest(files, classKey, hash, x) == Digests(files, classKey, hash)[j])
      && (forall j :: 0 <= j < |r.groups| ==> ClassClosed(r.groups[j], files, classKey))
  {
    var r := HashClasses(files, classKey, hash);
    var bs := Buckets(files, classKey, hash);
    assert r.groups == MapFlatten(bs);
    PartitionSpec(Hashable(Classes(files, classKey), hash), ClassDigest(hash));
    forall j | 0 <= j < |r.groups|
      ensures Digests(files, classKey, hash)[j].Some?
      ensures forall x :: x in r.groups[j] ==>
                x in files && RepDigest(files, classKey, hash, x) == Digests(files, classKey, hash)[j]
      ensures ClassClosed(r.groups[j], files, classKey)
    {
      DigestsSome(files, classKey, hash, j);
      forall x | x in r.groups[j]
        ensures x in files && RepDigest(files, classKey, hash, x) == Digests(files, classKey, hash)[j]
      {
        BucketMember(files, classKey, hash, j, x);
      }
      BucketClosed(files, classKey, hash, j);
    }
  }

  /** One returned group is a hash-consistent sub-group keeping whole classes. */
  lemma GroupConsistent<K>(files: seq<FileInfo>, classKey: FileInfo -> K, hash: HashOracle, j: int)
    requires 0 <= j < |HashClasses(files, classKey, hash).groups|
    ensures var g := HashClasses(files, classKey, hash).groups[j];
      SubGroup(g, files) && ClassClosed(g, files, classKey) && HashConsistent(g, classKey, hash)
  {
    var bs := Buckets(files, classKey, hash);
    var g := HashClasses(files, classKey, hash).groups[j];
    assert g == Flatten(bs[j]);
    BucketClosed(files, classKey, hash, j);
    forall x | x in g
      ensures x in files
    {
      BucketMember(files, classKey, hash, j, x);
    }
    forall x, y | x in g && y in g && classKey(x) != classKey(y)
      ensures Vouched(g, classKey, hash, x, y)
    {
      BucketMember(files, classKey, hash, j, x);
      BucketMember(files, classKey, hash, j, y);
      var rx := Rep(files, classKey, x);
      var ry := Rep(files, classKey, y);
      assert rx in g && ry in g;
    }
  }

  /** The groups returned by the multi-class branch are hash-consistent. */
  lemma HashClassesConsistent<K>(files: seq<FileInfo>, classKey: FileInfo -> K, hash: HashOracle)
    ensures forall g :: g in HashClasses(files, classKey, hash).groups ==>
              SubGroup(g, files) && ClassClosed(g, files, classKey) && HashConsistent(g, classKey, hash)
  {
    var gs := HashClasses(files, classKey, hash).groups;
    forall g | g in gs
      ensures SubGroup(g, files) && ClassClosed(g, files, classKey) && HashConsistent(g, classKey, hash)
    {
      var j :| 0 <= j < |gs| && gs[j] == g;
      GroupConsistent(files, classKey, hash, j);
    }
  }

  /** The class of a surviving file lies in one of the buckets. */
  lemma SurvivorBucket<K>(files: seq<FileInfo>, classKey: FileInfo -> K, hash: HashOracle, x: FileInfo)
      returns (j: int)
    requires x in files && RepDigest(files, classKey, hash, x).Some?
    ensures 0 <= j < |Buckets(files, classKey, hash)|
    ensures x in Flatten(Buckets(files, classKey, hash)[j])
  {
    var ok := Hashable(Classes(files, classKey), hash);
    var i := BucketOf(files, classKey, x);
    var c := Classes(files, classKey)[i];
    ClassOfMember(files, classKey, c, x);
    assert c in ok;
    j := BucketOf(ok, ClassDigest(hash), c);
    FlattenMember(Buckets(files, classKey, hash)[j], x);
  }

  /** A file survives exactly when the hash of its class's first member did not raise. */
  lemma HashClassesSurvivors<K>(files: seq<FileInfo>, classKey: FileInfo -> K, hash: HashOracle, x: FileInfo)
    ensures x in Flatten(HashClasses(files, classKey, hash).groups)
            <==> x in files && RepDigest(files, classKey, hash, x).Some?
  {
    var gs := HashClasses(files, classKey, hash).groups;
    FlattenMember(gs, x);
    if x in Flatten(gs) {
      var g :| g in gs && x in g;
      var j :| 0 <= j < |gs| && gs[j] == g;
      BucketMember(files, classKey, hash, j, x);
    }
    if x in files && RepDigest(files, classKey, hash, x).Some? {
      var j := SurvivorBucket(files, classKey, hash, x);
      assert x in gs[j];
    }
  }

  /** Two files whose classes hash alike land in one merged bucket. */
  lemma SameBucket<K>(files: seq<FileInfo>, classKey: FileInfo -> K, hash: HashOracle, x: FileInfo, y: FileInfo)
      returns (g: seq<FileInfo>)
    requires x in files && y in files
    requires RepDigest(files, classKey, hash, x).Some? && RepDigest(files, classKey, hash, x) == RepDigest(files, classKey, hash, y)
    ensures g in HashClasses(files, classKey, hash).groups && x in g && y in g
  {
    var bs := Buckets(files, classKey, hash);
    var i := SurvivorBucket(files, classKey, hash, x);
    var j := SurvivorBucket(files, classKey, hash, y);
    BucketMember(files, classKey, hash, i, x);
    BucketMember(files, classKey, hash, j, y);
    var ds := Digests(files, classKey, hash);
    assert ds[i] == ds[j];
    assert i == j;
    g := Flatten(bs[i]);
    assert HashClasses(files, classKey, hash).groups[i] == g;
  }

  /** Counting within a filter of classes: `x` keeps its count if its classes are kept. */
  lemma {:induction false} HashableCount(cs: seq<seq<FileInfo>>, hash: HashOracle, x: FileInfo, kept: bool)
    requires forall c :: c in cs && x in c ==> ClassDigest(hash)(c).Some? == kept
    ensures multiset(Flatten(Hashable(cs, hash)))[x] == if kept then multiset(Flatten(cs))[x] else 0
    decreases |cs|
  {
    if |cs| > 0 {
      HashableCount(cs[1..], hash, x, kept);
      assert Flatten(cs) == cs[0] + Flatten(cs[1..]);
      if ClassDigest(hash)(cs[0]).Some? {
        assert Hashable(cs, hash) == [cs[0]] + Hashable(cs[1..], hash);
        assert Flatten(Hashable(cs, hash)) == cs[0] + Flatten(Hashable(cs[1..], hash));
        if !kept {
          assert x !in cs[0];
        }
      } else {
        assert Hashable(cs, hash) == Hashable(cs[1..], hash);
        if kept {
          assert x !in cs[0];
        }
      }
    }
  }

  /** Every surviving file is returned exactly as often as it was given. */
  lemma HashClassesCount<K>(files: seq<FileInfo>, classKey: FileInfo -> K, hash: HashOracle, x: FileInfo)
    ensures multiset(Flatten(HashClasses(files, classKey, hash).groups))[x]
         == if x in files && RepDigest(files, classKey, hash, x).Some? then multiset(files)[x] else 0
  {
    var classes := Classes(files, classKey);
    var ok := Hashable(classes, hash);
    var bs := Buckets(files, classKey, hash);
    FlattenMapFlatten(bs);
    PartitionCovers(ok, ClassDigest(hash));
    FlattenPermutation(Flatten(bs), ok);
    PartitionCovers(files, classKey);
    var kept := x in files && RepDigest(files, classKey, hash, x).Some?;
    forall c | c in classes && x in c
      ensures ClassDigest(hash)(c).Some? == kept
    {
      ClassOfMember(files, classKey, c, x);
      SelectMember(files, classKey, classKey(x), x);
    }
    HashableCount(classes, hash, x, kept);
    if x !in files {
      assert multiset(files)[x] == 0;
    }
  }
}

=== FILE: pipeline.dfy ===
/**
 * The duplicate-finding pipeline of deduplicator.py: `stat_files`,
 * `group_by_size`, `group_by_hash` keyed on `(st_ino, st_dev)`, and
 * `deduplicate`, which composes a size stage and two hash stages (a quick
 * hash of the first block, then a hash of the whole content) with
 * `group_compose`.  `stat` and both hash functions are oracles.
 */
module Pipeline {
  import opened Common
  import opened Seqs
  import opened Grouping
  import opened Files
  import opened HashGrouping

  // ---------------------------------------------------------------------------
  // stat_files
  // ---------------------------------------------------------------------------

  /** `stat_files`: a record for every name that stats, is a regular file and is not empty, in order. */
  function StatFiles(names: seq<Path>, stat: StatOracle): (r: seq<FileInfo>)
    ensures |r| <= |names|
    ensures forall i :: 0 <= i < |r| ==> RegularFile(r[i]) && SizeOf(r[i]) > 0
    decreases |names|
  {
    if |names| == 0 then []
    else
      var rest := StatFiles(names[1..], stat);
      match stat(names[0])
        case None => rest
        case Some(st) =>
          if st.regular && st.size != 0 then [FileInfo(names[0], st)] + rest else rest
  }

  /** `f` is the record of a listed name whose stat succeeds, and it is a non-empty regular file. */
  predicate Admitted(names: seq<Path>, stat: StatOracle, f: FileInfo)
  {
    f.path in names && stat(f.path) == Some(f.st) && RegularFile(f) && SizeOf(f) > 0
  }

  /** A record is produced exactly for a listed name whose stat succeeds and passes both tests. */
  lemma {:induction false} StatFilesMember(names: seq<Path>, stat: StatOracle, f: FileInfo)
    ensures f in StatFiles(names, stat) <==> Admitted(names, stat, f)
    decreases |names|
  {
    if |names| > 0 {
      StatFilesMember(names[1..], stat, f);
      assert f.path in names <==> f.path == names[0] || f.path in names[1..];
    }
  }

  /** Every record drawn from `stat_files` passed its tests. */
  lemma StatFilesSubGroup(names: seq<Path>, stat: StatOracle, g: seq<FileInfo>)
    requires SubGroup(g, StatFiles(names, stat))
    ensures forall x :: x in g ==> Admitted(names, stat, x)
  {
    forall x | x in g
      ensures Admitted(names, stat, x)
    {
      StatFilesMember(names, stat, x);
    }
  }

  /** `stat_files` is a generator: it handles every name on its own, so it streams. */
  lemma {:induction false} StatFilesAppend(a: seq<Path>, b: seq<Path>, stat: StatOracle)
    ensures StatFiles(a + b, stat) == StatFiles(a, stat) + StatFiles(b, stat)
    decreases |a|
  {
    if |a| == 0 {
      assert a + b == b;
    } else {
      assert (a + b)[1..] == a[1..] + b;
      StatFilesAppend(a[1..], b, stat);
    }
  }

  // ---------------------------------------------------------------------------
  // group_by_size
  // ---------------------------------------------------------------------------

  /** `group_by_size`: the files of each size, sizes in order of first appearance. */
  function GroupBySize(files: seq<FileInfo>): (r: seq<seq<FileInfo>>)
    ensures |r| == |KeysOf(files, SizeOf)|
    ensures forall i :: 0 <= i < |r| ==> |r[i]| > 0 && forall x :: x in r[i] <==> x in files && SizeOf(x) == KeysOf(files, SizeOf)[i]
  {
    PartitionSpec(files, SizeOf);
    PartitionNonEmpty(files, SizeOf);
    var r := Partition(files, SizeOf);
    assert forall i :: 0 <= i < |r| ==> r[i] in r;
    forall i | 0 <= i < |r|
      ensures forall x :: x in r[i] <==> x in files && SizeOf(x) == KeysOf(files, SizeOf)[i]
    {
      forall x {
        SelectMember(files, SizeOf, KeysOf(files, SizeOf)[i], x);
      }
    }
    r
  }

  // ---------------------------------------------------------------------------
  // group_by_hash
  // ---------------------------------------------------------------------------

  /**
   * `group_by_hash`: with at most one `(st_ino, st_dev)` class the input is
   * returned whole and nothing is hashed; otherwise every class is hashed once.
   */
  function GroupByHash(files: seq<FileInfo>, hash: HashOracle): HashRun
  {
    if |Classes(files, IdentOf)| <= 1 then HashRun([files], []) else HashClasses(files, IdentOf, hash)
  }

  /**
   * The hash is never called exactly when the files form at most one
   * `(st_ino, st_dev)` class, the empty input included, and then the input
   * comes back as the only group.
   */
  lemma GroupByHashShortCircuit(files: seq<FileInfo>, hash: HashOracle)
    ensures var r := GroupByHash(files, hash);
      && (r.hashed == [] <==> |KeysOf(files, IdentOf)| <= 1)
      && (|KeysOf(files, IdentOf)| <= 1 ==> r.groups == [files])
  {
    PartitionSpec(files, IdentOf);
    HashClassesCalls(files, IdentOf, hash);
  }

  /** With two classes or more, each class is hashed once, through its first member, in class order. */
  lemma GroupByHashCalls(files: seq<FileInfo>, hash: HashOracle)
    requires |KeysOf(files, IdentOf)| > 1
    ensures var r := GroupByHash(files, hash);
      && |r.hashed| == |KeysOf(files, IdentOf)|
      && forall i :: 0 <= i < |r.hashed| ==>
           |Select(files, IdentOf, KeysOf(files, IdentOf)[i])| > 0 &&
           r.hashed[i] == Select(files, IdentOf, KeysOf(files, IdentOf)[i])[0]
  {
    PartitionSpec(files, IdentOf);
    HashClassesCalls(files, IdentOf, hash);
  }

  /** Every returned group is drawn from the input, keeps whole classes and is hash-consistent. */
  lemma GroupByHashGroups(files: seq<FileInfo>, hash: HashOracle)
    ensures forall g :: g in GroupByHash(files, hash).groups ==>
              SubGroup(g, files) && ClassClosed(g, files, IdentOf) && HashConsistent(g, IdentOf, hash)
  {
    PartitionSpec(files, IdentOf);
    if |KeysOf(files, IdentOf)| <= 1 {
      OneClassConsistent(files, IdentOf, hash);
    } else {
      HashClassesConsistent(files, IdentOf, hash);
    }
  }

  /**
   * Every input file is returned exactly as often as it was given, unless
   * there are several classes and the hash of its class's first member raised;
   * then it is not returned at all.
   */
  lemma GroupByHashCount(files: seq<FileInfo>, hash: HashOracle, x: FileInfo)
    ensures multiset(Flatten(GroupByHash(files, hash).groups))[x]
         == if |KeysOf(files, IdentOf)| <= 1 || (x in files && RepDigest(files, IdentOf, hash, x).Some?)
            then multiset(files)[x] else 0
  {
    PartitionSpec(files, IdentOf);
    if |KeysOf(files, IdentOf)| <= 1 {
      assert Flatten([files]) == files + Flatten([files][1..]);
    } else {
      HashClassesCount(files, IdentOf, hash, x);
    }
  }

  // ---------------------------------------------------------------------------
  // deduplicate
  // ---------------------------------------------------------------------------

  /** `lambda x: group_by_hash(x, hash_function)`. */
  function HashStage(hash: HashOracle): seq<FileInfo> -> seq<seq<FileInfo>>
  {
    (files: seq<FileInfo>) => GroupByHash(files, hash).groups
  }

  /** The three grouping stages, in order: size, quick hash, full hash. */
  function Stages(fast: HashOracle, full: HashOracle): seq<seq<FileInfo> -> seq<seq<FileInfo>>>
  {
    [GroupBySize, HashStage(fast), HashStage(full)]
  }

  /** `deduplicate`: all stat'ed files start in one group, then go through the stages. */
  function Deduplicate(names: seq<Path>, stat: StatOracle, fast: HashOracle, full: HashOracle): seq<seq<FileInfo>>
  {
    GroupCompose([StatFiles(names, stat)], Stages(fast, full))
  }

  /** The three passes `group_compose` makes. */
  lemma DeduplicatePasses(names: seq<Path>, stat: StatOracle, fast: HashOracle, full: HashOracle)
    ensures Deduplicate(names, stat, fast, full)
         == Refine(Refine(Refine([StatFiles(names, stat)], GroupBySize), HashStage(fast)), HashStage(full))
  {
    GroupComposeThree([StatFiles(names, stat)], GroupBySize, HashStage(fast), HashStage(full));
  }

  /** All members of `g` have the same size. */
  ghost predicate SameSize(g: seq<FileInfo>)
  {
    forall x, y :: x in g && y in g ==> SizeOf(x) == SizeOf(y)
  }

  /** A group after the size stage. */
  ghost predicate SizeOk(g: seq<FileInfo>, all: seq<FileInfo>)
  {
    SubGroup(g, all) && SameSize(g)
  }

  /** A group after the size and quick-hash stages. */
  ghost predicate FastOk(g: seq<FileInfo>, all: seq<FileInfo>, fast: HashOracle)
  {
    SizeOk(g, all) && HashConsistent(g, IdentOf, fast)
  }

  /** The groups a final group descends from, one per earlier pass. */
  lemma PassOrigin(all: seq<FileInfo>, fast: HashOracle, full: HashOracle, g: seq<FileInfo>)
      returns (d1: seq<FileInfo>, d2: seq<FileInfo>)
    requires g in Refine(Refine(Refine([all], GroupBySize), HashStage(fast)), HashStage(full))
    ensures d1 in Refine([all], GroupBySize) && d2 in HashStage(fast)(d1) && g in HashStage(full)(d2)
    ensures |g| > 1
  {
    var l1 := Refine([all], GroupBySize);
    var l2 := Refine(l1, HashStage(fast));
    d2 := RefineOrigin(l2, HashStage(full), g);
    d1 := RefineOrigin(l1, HashStage(fast), d2);
  }

  lemma SizeStageOk(all: seq<FileInfo>, d: seq<FileInfo>)
    requires d in Refine([all], GroupBySize)
    ensures SizeOk(d, all)
  {
    var d0 := RefineOrigin([all], GroupBySize, d);
    var gs := GroupBySize(all);
    var i :| 0 <= i < |gs| && gs[i] == d;
  }

  lemma FastStageOk(all: seq<FileInfo>, d: seq<FileInfo>, fast: HashOracle, g: seq<FileInfo>)
    requires SizeOk(d, all) && g in HashStage(fast)(d)
    ensures FastOk(g, all, fast)
  {
    GroupByHashGroups(d, fast);
  }

  lemma FullStageOk(all: seq<FileInfo>, d: seq<FileInfo>, fast: HashOracle, full: HashOracle, g: seq<FileInfo>)
    requires FastOk(d, all, fast) && g in HashStage(full)(d)
    ensures FastOk(g, all, fast) && HashConsistent(g, IdentOf, full)
  {
    GroupByHashGroups(d, full);
    ConsistentSubGroup(d, g, IdentOf, fast);
  }

  /** The stage invariants hold of every group `deduplicate` yields. */
  lemma DeduplicateStages(names: seq<Path>, stat: StatOracle, fast: HashOracle, full: HashOracle, g: seq<FileInfo>)
    requires g in Deduplicate(names, stat, fast, full)
    ensures |g| > 1
    ensures FastOk(g, StatFiles(names, stat), fast) && HashConsistent(g, IdentOf, full)
  {
    var all := StatFiles(names, stat);
    DeduplicatePasses(names, stat, fast, full);
    var d1, d2 := PassOrigin(all, fast, full, g);
    SizeStageOk(all, d1);
    FastStageOk(all, d1, fast, d2);
    FullStageOk(all, d2, fast, full, g);
  }

  /**
   * Every group `deduplicate` yields has at least two members, all stat'ed
   * regular non-empty files of one size, and any two of them share
   * `(st_ino, st_dev)` or were matched by both hashes through class-mates.
   */
  lemma DeduplicateSound(names: seq<Path>, stat: StatOracle, fast: HashOracle, full: HashOracle, g: seq<FileInfo>)
    requires g in Deduplicate(names, stat, fast, full)
    ensures |g| >= 2
    ensures forall x :: x in g ==> Admitted(names, stat, x)
    ensures SameSize(g)
    ensures HashConsistent(g, IdentOf, fast) && HashConsistent(g, IdentOf, full)
  {
    DeduplicateStages(names, stat, fast, full, g);
    FinalGroupOk(names, stat, fast, full, g);
  }

  /** The stage invariants, read back in terms of the input names. */
  lemma FinalGroupOk(names: seq<Path>, stat: StatOracle, fast: HashOracle, full: HashOracle, g: seq<FileInfo>)
    requires |g| > 1 && FastOk(g, StatFiles(names, stat), fast) && HashConsistent(g, IdentOf, full)
    ensures |g| >= 2
    ensures forall x :: x in g ==> Admitted(names, stat, x)
    ensures SameSize(g)
    ensures HashConsistent(g, IdentOf, fast) && HashConsistent(g, IdentOf, full)
  {
    StatFilesSubGroup(names, stat, g);
  }

  // ---------------------------------------------------------------------------
  // Completeness: hard links of one file are reported together
  // ---------------------------------------------------------------------------

  /** Some group holds both `x` and `y`. */
  ghost predicate Together(gs: seq<seq<FileInfo>>, x: FileInfo, y: FileInfo)
  {
    exists g :: g in gs && x in g && y in g
  }

  /** Every record of `x`'s class in `all` hashes without error. */
  ghost predicate ClassHashes(all: seq<FileInfo>, hash: HashOracle, x: FileInfo)
  {
    forall f :: f in all && IdentOf(f) == IdentOf(x) ==> hash(f.path).Some?
  }

  /** Every record of `x`'s class and of `y`'s class in `all` hashes to `h`. */
  ghost predicate ClassesHashTo(all: seq<FileInfo>, hash: HashOracle, x: FileInfo, y: FileInfo, h: Digest)
  {
    forall f :: f in all && (IdentOf(f) == IdentOf(x) || IdentOf(f) == IdentOf(y)) ==> hash(f.path) == Some(h)
  }

  /** A hash stage keeps two class-mates together when their class hashes. */
  lemma HashStageTogether(d: seq<FileInfo>, all: seq<FileInfo>, hash: HashOracle, x: FileInfo, y: FileInfo)
    requires x in d && y in d && IdentOf(x) == IdentOf(y)
    requires SubGroup(d, all) && ClassHashes(all, hash, x)
    ensures Together(GroupByHash(d, hash).groups, x, y)
  {
    var gs := GroupByHash(d, hash).groups;
    PartitionSpec(d, IdentOf);
    if |KeysOf(d, IdentOf)| <= 1 {
      assert d in gs;
    } else {
      assert Rep(d, IdentOf, x) in all;
      HashClassesSurvivors(d, IdentOf, hash, x);
      FlattenMember(gs, x);
      var g :| g in gs && x in g;
      GroupByHashGroups(d, hash);
      assert ClassClosed(g, d, IdentOf);
      assert y in g;
    }
  }

  /** A hash stage keeps two files together when both their classes hash to one digest. */
  lemma HashStageMatches(d: seq<FileInfo>, all: seq<FileInfo>, hash: HashOracle, x: FileInfo, y: FileInfo, h: Digest)
    requires x in d && y in d
    requires SubGroup(d, all) && ClassesHashTo(all, hash, x, y, h)
    ensures Together(GroupByHash(d, hash).groups, x, y)
  {
    PartitionSpec(d, IdentOf);
    if |KeysOf(d, IdentOf)| <= 1 {
      assert d in GroupByHash(d, hash).groups;
    } else {
      assert Rep(d, IdentOf, x) in all && Rep(d, IdentOf, y) in all;
      var g := SameBucket(d, IdentOf, hash, x, y);
    }
  }

  lemma RefineTogether(data: seq<seq<FileInfo>>, stage: seq<FileInfo> -> seq<seq<FileInfo>>, d: seq<FileInfo>, x: FileInfo, y: FileInfo)
    requires d in data && x != y
    requires Together(stage(d), x, y)
    ensures Together(Refine(data, stage), x, y)
  {
    var g :| g in stage(d) && x in g && y in g;
    TwoMembers(g, x, y);
    RefineMember(data, stage, g);
  }

  /** Two different records of one size stay together through the size pass. */
  lemma SizePassTogether(all: seq<FileInfo>, x: FileInfo, y: FileInfo)
    requires x in all && y in all && x != y && SizeOf(x) == SizeOf(y)
    ensures Together(Refine([all], GroupBySize), x, y)
  {
    var gs := GroupBySize(all);
    var j := BucketOf(all, SizeOf, x);
    assert x in gs[j] && y in gs[j];
    RefineTogether([all], GroupBySize, all, x, y);
  }

  /** Every group of the first two passes is drawn from the stat'ed files. */
  lemma PassesSubGroup(all: seq<FileInfo>, fast: HashOracle)
    ensures forall d :: d in Refine([all], GroupBySize) ==> SubGroup(d, all)
    ensures forall d :: d in Refine(Refine([all], GroupBySize), HashStage(fast)) ==> SubGroup(d, all)
  {
    var l1 := Refine([all], GroupBySize);
    forall d | d in l1
      ensures SubGroup(d, all)
    {
      SizeStageOk(all, d);
    }
    forall g | g in Refine(l1, HashStage(fast))
      ensures SubGroup(g, all)
    {
      var d := RefineOrigin(l1, HashStage(fast), g);
      SizeStageOk(all, d);
      FastStageOk(all, d, fast, g);
    }
  }

  /** Two different records of one class stay together through a hash pass when their class hashes. */
  lemma HashPassTogether(data: seq<seq<FileInfo>>, all: seq<FileInfo>, hash: HashOracle, x: FileInfo, y: FileInfo)
    requires Together(data, x, y) && x != y && IdentOf(x) == IdentOf(y)
    requires forall d :: d in data ==> SubGroup(d, all)
    requires ClassHashes(all, hash, x)
    ensures Together(Refine(data, HashStage(hash)), x, y)
  {
    var d :| d in data && x in d && y in d;
    HashStageTogether(d, all, hash, x, y);
    RefineTogether(data, HashStage(hash), d, x, y);
  }

  /** Two different records stay together through a hash pass when both their classes hash to one digest. */
  lemma HashPassMatches(data: seq<seq<FileInfo>>, all: seq<FileInfo>, hash: HashOracle, x: FileInfo, y: FileInfo, h: Digest)
    requires Together(data, x, y) && x != y
    requires forall d :: d in data ==> SubGroup(d, all)
    requires ClassesHashTo(all, hash, x, y, h)
    ensures Together(Refine(data, HashStage(hash)), x, y)
  {
    var d :| d in data && x in d && y in d;
    HashStageMatches(d, all, hash, x, y, h);
    RefineTogether(data, HashStage(hash), d, x, y);
  }

  /**
   * Two different stat'ed records of one file, with the same size, end up in
   * one group when no record of that file fails to hash: hard links are never
   * split apart, whatever happens to the other files.
   */
  lemma DeduplicateKeepsLinksTogether(names: seq<Path>, stat: StatOracle, fast: HashOracle, full: HashOracle, x: FileInfo, y: FileInfo)
    requires x in StatFiles(names, stat) && y in StatFiles(names, stat) && x != y
    requires IdentOf(x) == IdentOf(y) && SizeOf(x) == SizeOf(y)
    requires forall f :: f in StatFiles(names, stat) && IdentOf(f) == IdentOf(x) ==> fast(f.path).Some? && full(f.path).Some?
    ensures Together(Deduplicate(names, stat, fast, full), x, y)
  {
    var all := StatFiles(names, stat);
    assert ClassHashes(all, fast, x) && ClassHashes(all, full, x);
    PassesTogether(all, fast, full, x, y);
    DeduplicateTogether(names, stat, fast, full, x, y);
  }

  /**
   * The converse of `DeduplicateSound`: two different stat'ed records of one
   * size end up in one group when every record of their two files hashes to
   * the same quick digest and to the same full digest, whatever happens to the
   * other files.
   */
  lemma DeduplicateComplete(names: seq<Path>, stat: StatOracle, fast: HashOracle, full: HashOracle,
                            x: FileInfo, y: FileInfo, quick: Digest, whole: Digest)
    requires x in StatFiles(names, stat) && y in StatFiles(names, stat) && x != y
    requires SizeOf(x) == SizeOf(y)
    requires forall f :: f in StatFiles(names, stat) && (IdentOf(f) == IdentOf(x) || IdentOf(f) == IdentOf(y)) ==>
               fast(f.path) == Some(quick) && full(f.path) == Some(whole)
    ensures Together(Deduplicate(names, stat, fast, full), x, y)
  {
    var all := StatFiles(names, stat);
    assert ClassesHashTo(all, fast, x, y, quick) && ClassesHashTo(all, full, x, y, whole);
    PassesMatch(all, fast, full, x, y, quick, whole);
    DeduplicateTogether(names, stat, fast, full, x, y);
  }

  lemma DeduplicateTogether(names: seq<Path>, stat: StatOracle, fast: HashOracle, full: HashOracle, x: FileInfo, y: FileInfo)
    requires Together(Refine(Refine(Refine([StatFiles(names, stat)], GroupBySize), HashStage(fast)), HashStage(full)), x, y)
    ensures Together(Deduplicate(names, stat, fast, full), x, y)
  {
    DeduplicatePasses(names, stat, fast, full);
  }

  /** The three passes keep two different records of one file and one size together. */
  lemma PassesTogether(all: seq<FileInfo>, fast: HashOracle, full: HashOracle, x: FileInfo, y: FileInfo)
    requires x in all && y in all && x != y
    requires IdentOf(x) == IdentOf(y) && SizeOf(x) == SizeOf(y)
    requires ClassHashes(all, fast, x) && ClassHashes(all, full, x)
    ensures Together(Refine(Refine(Refine([all], GroupBySize), HashStage(fast)), HashStage(full)), x, y)
  {
    var l1 := Refine([all], GroupBySize);
    var l2 := Refine(l1, HashStage(fast));
    SizePassTogether(all, x, y);
    PassesSubGroup(all, fast);
    HashPassTogether(l1, all, fast, x, y);
    HashPassTogether(l2, all, full, x, y);
  }

  /** The three passes keep two different records of one size together when their files hash alike. */
  lemma PassesMatch(all: seq<FileInfo>, fast: HashOracle, full: HashOracle, x: FileInfo, y: FileInfo, quick: Digest, whole: Digest)
    requires x in all && y in all && x != y && SizeOf(x) == SizeOf(y)
    requires ClassesHashTo(all, fast, x, y, quick) && ClassesHashTo(all, full, x, y, whole)
    ensures Together(Refine(Refine(Refine([all], GroupBySize), HashStage(fast)), HashStage(full)), x, y)
  {
    var l1 := Refine([all], GroupBySize);
    var l2 := Refine(l1, HashStage(fast));
    SizePassTogether(all, x, y);
    PassesSubGroup(all, fast);
    HashPassMatches(l1, all, fast, x, y, quick);
    HashPassMatches(l2, all, full, x, y, whole);
  }
}

=== FILE: reader.dfy ===
/**
 * `read_filenames`: the tokenizer that turns the standard-input stream into
 * file names.  The stream is read in chunks; each chunk is appended to the
 * bytes left over from the previous one and split on the separator byte
 * (newline, or NUL with `-0`); a trailing partial token is kept for the next
 * round, and empty tokens are dropped.  The chunks are the reads made before
 * the end of the stream.
 */
module Reader {
  import opened Common
  import opened Seqs
  import opened Tokens

  /** One round of the loop keeps the invariant that links the names so far to the stream so far. */
  lemma RoundStep(pre: seq<seq<Byte>>, remain: seq<Byte>, chunk: seq<Byte>, sep: Byte, read: seq<Byte>)
    requires Split(read, sep) == pre + [remain]
    ensures Split(read + chunk, sep) == pre + Split(remain + chunk, sep)
  {
    SplitExtend(read, chunk, sep);
    var sr := Split(read, sep);
    assert sr[..|sr|-1] == pre && sr[|sr|-1] == remain;
  }

  /** The stream read after one more chunk. */
  lemma FlattenSnoc(chunks: seq<seq<Byte>>, i: nat)
    requires i < |chunks|
    ensures Flatten(chunks[..i+1]) == Flatten(chunks[..i]) + chunks[i]
  {
    assert chunks[..i+1] == chunks[..i] + [chunks[i]];
    FlattenAppend(chunks[..i], [chunks[i]]);
    assert Flatten([chunks[i]]) == chunks[i] + Flatten([chunks[i]][1..]);
  }

  /** One round of the loop keeps the split of the stream so far: the pieces before, then the one held back. */
  lemma RoundSplit(read: seq<Byte>, chunk: seq<Byte>, sep: Byte, pre: seq<seq<Byte>>, remain: seq<Byte>,
                   all: seq<seq<Byte>>, rest: seq<Byte>)
    requires Split(read, sep) == pre + [remain]
    requires all == Split(remain + chunk, sep)
    requires rest == all[|all|-1]
    ensures Split(read + chunk, sep) == (pre + all[..|all|-1]) + [rest]
  {
    RoundStep(pre, remain, chunk, sep, read);
    SnocLast(pre, all);
  }

  lemma SnocLast<T>(pre: seq<T>, all: seq<T>)
    requires |all| > 0
    ensures (pre + all[..|all|-1]) + [all[|all|-1]] == pre + all
  {
    assert all == all[..|all|-1] + [all[|all|-1]];
  }

  /**
   * Whether the last token is held back (not empty) or emitted (empty, so
   * dropped by the test), the names emitted are those of all tokens but the last.
   */
  lemma HeldBack(all: seq<seq<Byte>>, tokens: seq<seq<Byte>>)
    requires |all| > 0
    requires tokens == all[..|all|-1] || (tokens == all && |all[|all|-1]| == 0)
    ensures NonEmpty(tokens) == NonEmpty(all[..|all|-1])
  {
  }

  /** The names at the end: the pieces before the remainder, and the remainder when not empty. */
  lemma LastNames(pre: seq<seq<Byte>>, remain: seq<Byte>)
    ensures NonEmpty(pre + [remain]) == NonEmpty(pre) + (if |remain| > 0 then [remain] else [])
  {
    assert (pre + [remain])[..|pre + [remain]|-1] == pre;
  }

  /** The inner loop: emit the non-empty tokens of one round after the names so far. */
  method AppendNonEmpty(names: seq<seq<Byte>>, tokens: seq<seq<Byte>>) returns (r: seq<seq<Byte>>)
    ensures r == names + NonEmpty(tokens)
  {
    r := names;
    var j := 0;
    while j < |tokens|
      invariant 0 <= j <= |tokens|
      invariant r == names + NonEmpty(tokens[..j])
    {
      if |tokens[j]| > 0 {
        r := r + [tokens[j]];
      }
      assert tokens[..j+1][..j] == tokens[..j];
      j := j + 1;
    }
    assert tokens[..|tokens|] == tokens;
  }

  /**
   * One round of the loop: split the held-back bytes and the new chunk, hold
   * back the last piece (an empty last piece is emitted and dropped, which
   * comes to the same) and emit the non-empty pieces before it.
   */
  method ReadRound(names: seq<seq<Byte>>, remain: seq<Byte>, chunk: seq<Byte>, sep: Byte)
    returns (next: seq<seq<Byte>>, rest: seq<Byte>)
    ensures var all := Split(remain + chunk, sep);
      rest == all[|all|-1] && next == names + NonEmpty(all[..|all|-1])
  {
    var tokens := Split(remain + chunk, sep);
    ghost var all := tokens;
    rest := [];
    if |tokens| > 0 && |tokens[|tokens|-1]| > 0 {
      tokens, rest := tokens[..|tokens|-1], tokens[|tokens|-1];
    }
    next := AppendNonEmpty(names, tokens);
    HeldBack(all, tokens);
  }

  /** The names once the stream has ended: the remainder is the last piece. */
  lemma LastRound(chunks: seq<seq<Byte>>, sep: Byte, pre: seq<seq<Byte>>, remain: seq<Byte>)
    requires Split(Flatten(chunks[..|chunks|]), sep) == pre + [remain]
    ensures NonEmpty(Split(Flatten(chunks), sep)) == NonEmpty(pre) + (if |remain| > 0 then [remain] else [])
  {
    assert chunks[..|chunks|] == chunks;
    LastNames(pre, remain);
  }

  /**
   * `read_filenames(stream, separator)`: the names are exactly the non-empty
   * pieces of splitting the whole stream on the separator, whatever the chunk
   * boundaries; none is empty and none contains the separator.
   */
  method ReadFilenames(chunks: seq<seq<Byte>>, sep: Byte) returns (names: seq<seq<Byte>>)
    ensures names == NonEmpty(Split(Flatten(chunks), sep))
    ensures forall i :: 0 <= i < |names| ==> |names[i]| > 0 && sep !in names[i]
  {
    var remain: seq<Byte> := [];
    names := [];
    ghost var pre: seq<seq<Byte>> := [];
    var i := 0;
    while i < |chunks|
      invariant 0 <= i <= |chunks|
      invariant Split(Flatten(chunks[..i]), sep) == pre + [remain]
      invariant names == NonEmpty(pre)
    {
      ghost var all := Split(remain + chunks[i], sep);
      var rest;
      names, rest := ReadRound(names, remain, chunks[i], sep);
      RoundSplit(Flatten(chunks[..i]), chunks[i], sep, pre, remain, all, rest);
      NonEmptyAppend(pre, all[..|all|-1]);
      FlattenSnoc(chunks, i);
      pre, remain := pre + all[..|all|-1], rest;
      i := i + 1;
    }
    LastRound(chunks, sep, pre, remain);
    if |remain| > 0 {
      names := names + [remain];
    }
    NamesClean(Flatten(chunks), sep);
  }
}

=== FILE: seqs.dfy ===
/** Generic facts about nested sequences used by the grouping stages. */
module Seqs {

  /** Concatenation of all the inner sequences, in order. */
  function Flatten<T>(ss: seq<seq<T>>): (r: seq<T>)
    ensures |ss| == 0 ==> r == []
  {
    if |ss| == 0 then [] else ss[0] + Flatten(ss[1..])
  }

  /** Each bucket of buckets-of-sequences flattened on its own. */
  function MapFlatten<T>(bss: seq<seq<seq<T>>>): (r: seq<seq<T>>)
    ensures |r| == |bss|
    ensures forall i :: 0 <= i < |bss| ==> r[i] == Flatten(bss[i])
  {
    if |bss| == 0 then [] else [Flatten(bss[0])] + MapFlatten(bss[1..])
  }

  /** No value occurs twice. */
  predicate Distinct<T(==)>(s: seq<T>)
  {
    forall i, j :: 0 <= i < j < |s| ==> s[i] != s[j]
  }

  lemma {:induction false} FlattenAppend<T>(a: seq<seq<T>>, b: seq<seq<T>>)
    ensures Flatten(a + b) == Flatten(a) + Flatten(b)
    decreases |a|
  {
    if |a| == 0 {
      assert a + b == b;
    } else {
      assert (a + b)[1..] == a[1..] + b;
      FlattenAppend(a[1..], b);
    }
  }

  /** An item is in the concatenation exactly when it is in one of the parts. */
  lemma {:induction false} FlattenMember<T>(ss: seq<seq<T>>, x: T)
    ensures x in Flatten(ss) <==> exists s :: s in ss && x in s
    decreases |ss|
  {
    if |ss| > 0 {
      FlattenMember(ss[1..], x);
      assert forall s :: s in ss <==> s == ss[0] || s in ss[1..];
    }
  }

  /** Taking one part out of the middle removes exactly its items. */
  lemma {:induction false} FlattenRemove<T>(b: seq<seq<T>>, k: nat)
    requires k < |b|
    ensures multiset(Flatten(b)) == multiset(b[k]) + multiset(Flatten(b[..k] + b[k+1..]))
  {
    var tail := [b[k]] + b[k+1..];
    assert b == b[..k] + tail;
    FlattenAppend(b[..k], tail);
    assert tail[1..] == b[k+1..];
    assert Flatten(tail) == b[k] + Flatten(b[k+1..]);
    FlattenAppend(b[..k], b[k+1..]);
  }

  /** Taking out the item at `k` takes one occurrence of it out of the multiset. */
  lemma RemoveAt<T>(b: seq<T>, k: nat)
    requires k < |b|
    ensures multiset(b[..k] + b[k+1..]) == multiset(b) - multiset{b[k]}
  {
    assert b == b[..k] + [b[k]] + b[k+1..];
  }

  /** Reordering the parts does not change the multiset of the concatenation. */
  lemma {:induction false} FlattenPermutation<T>(a: seq<seq<T>>, b: seq<seq<T>>)
    requires multiset(a) == multiset(b)
    ensures multiset(Flatten(a)) == multiset(Flatten(b))
    decreases |a|
  {
    if |a| == 0 {
      assert |b| == |multiset(b)| == 0;
    } else {
      assert a[0] in multiset(b);
      var k :| 0 <= k < |b| && b[k] == a[0];
      var rest := b[..k] + b[k+1..];
      TailPermutation(a, b, k);
      FlattenPermutation(a[1..], rest);
      FlattenRemove(b, k);
    }
  }

  /** Matching the head of `a` with part `k` of `b` leaves two permutations. */
  lemma TailPermutation<T>(a: seq<T>, b: seq<T>, k: nat)
    requires multiset(a) == multiset(b) && |a| > 0 && k < |b| && b[k] == a[0]
    ensures multiset(a[1..]) == multiset(b[..k] + b[k+1..])
  {
    var m := multiset{a[0]};
    RemoveAt(b, k);
    assert a == [a[0]] + a[1..];
    assert multiset(a[1..]) == multiset(a) - m;
  }

  /** Flattening bucket by bucket and then flattening the buckets is one flat walk. */
  lemma {:induction false} FlattenMapFlatten<T>(bss: seq<seq<seq<T>>>)
    ensures Flatten(MapFlatten(bss)) == Flatten(Flatten(bss))
    decreases |bss|
  {
    if |bss| > 0 {
      FlattenMapFlatten(bss[1..]);
      FlattenAppend(bss[0], Flatten(bss[1..]));
      assert MapFlatten(bss)[1..] == MapFlatten(bss[1..]);
    }
  }
}

=== FILE: tokens.dfy ===
/**
 * Byte tokens: `bytes.split` with a one-byte separator, its inverse
 * `bytes.join`, and the filter that drops empty tokens.
 */
module Tokens {
  import opened Common

  /** `s.split(sep)`: the maximal separator-free runs between separators, empty ones included. */
  function Split(s: seq<Byte>, sep: Byte): (r: seq<seq<Byte>>)
    ensures |r| >= 1
    decreases |s|
  {
    if |s| == 0 then [[]]
    else
      var rest := Split(s[1..], sep);
      if s[0] == sep then [[]] + rest
      else [[s[0]] + rest[0]] + rest[1..]
  }

  /** `sep.join(ps)`. */
  function Join(ps: seq<seq<Byte>>, sep: Byte): seq<Byte>
    requires |ps| > 0
    decreases |ps|
  {
    if |ps| == 1 then ps[0] else ps[0] + [sep] + Join(ps[1..], sep)
  }

  /** The tokens that are not empty, in order (the `if tok:` test). */
  function NonEmpty(ts: seq<seq<Byte>>): (r: seq<seq<Byte>>)
    ensures |r| <= |ts|
    decreases |ts|
  {
    if |ts| == 0 then []
    else NonEmpty(ts[..|ts|-1]) + (if |ts[|ts|-1]| > 0 then [ts[|ts|-1]] else [])
  }

  lemma JoinCons(x: seq<Byte>, r0: seq<Byte>, rs: seq<seq<Byte>>, sep: Byte)
    ensures Join([x + r0] + rs, sep) == x + Join([r0] + rs, sep)
  {
    if |rs| > 0 {
      assert ([x + r0] + rs)[1..] == rs;
      assert ([r0] + rs)[1..] == rs;
    }
  }

  /** No piece contains the separator. */
  lemma {:induction false} SplitSepFree(s: seq<Byte>, sep: Byte)
    ensures forall i :: 0 <= i < |Split(s, sep)| ==> sep !in Split(s, sep)[i]
    decreases |s|
  {
    if |s| > 0 {
      SplitSepFree(s[1..], sep);
      var rest := Split(s[1..], sep);
      if s[0] != sep {
        assert sep !in [s[0]] + rest[0];
      }
    }
  }

  /** Joining the pieces back gives the input. */
  lemma {:induction false} SplitJoin(s: seq<Byte>, sep: Byte)
    ensures Join(Split(s, sep), sep) == s
    decreases |s|
  {
    if |s| > 0 {
      var rest := Split(s[1..], sep);
      SplitJoin(s[1..], sep);
      if s[0] == sep {
        assert ([[]] + rest)[1..] == rest;
      } else {
        JoinCons([s[0]], rest[0], rest[1..], sep);
        assert [rest[0]] + rest[1..] == rest;
      }
    }
  }

  /** A separator-free input is one piece. */
  lemma {:induction false} SplitNoSep(s: seq<Byte>, sep: Byte)
    requires sep !in s
    ensures Split(s, sep) == [s]
    decreases |s|
  {
    if |s| > 0 {
      assert sep !in s[1..] by {
        forall k | 0 <= k < |s[1..]| ensures s[1..][k] != sep { assert s[1..][k] == s[k+1]; }
      }
      SplitNoSep(s[1..], sep);
      assert s == [s[0]] + s[1..];
    }
  }

  /** The pieces of `x` followed by one separator: `x` and an empty piece. */
  lemma {:induction false} SplitThenSep(x: seq<Byte>, sep: Byte)
    requires sep !in x
    ensures Split(x + [sep], sep) == [x, []]
    decreases |x|
  {
    if |x| == 0 {
      assert x + [sep] == [sep];
      assert [sep][1..] == [];
    } else {
      assert (x + [sep])[1..] == x[1..] + [sep];
      assert sep !in x[1..] by {
        forall k | 0 <= k < |x[1..]| ensures x[1..][k] != sep { assert x[1..][k] == x[k+1]; }
      }
      SplitThenSep(x[1..], sep);
      assert x == [x[0]] + x[1..];
    }
  }

  /** One step of `Split`, on an explicit first byte. */
  lemma SplitCons(c: Byte, t: seq<Byte>, sep: Byte)
    ensures Split([c] + t, sep) ==
              if c == sep then [[]] + Split(t, sep) else [[c] + Split(t, sep)[0]] + Split(t, sep)[1..]
  {
    assert ([c] + t)[0] == c && ([c] + t)[1..] == t;
  }

  /**
   * Splitting `a + b` splits `a`, then continues from its last piece: only
   * that piece can merge with the start of `b`.
   */
  lemma {:induction false} SplitExtend(a: seq<Byte>, b: seq<Byte>, sep: Byte)
    ensures var sa := Split(a, sep);
      Split(a + b, sep) == sa[..|sa|-1] + Split(sa[|sa|-1] + b, sep)
    decreases |a|
  {
    if |a| == 0 {
      assert a + b == b;
    } else {
      var c, a1 := a[0], a[1..];
      assert a == [c] + a1 && a + b == [c] + (a1 + b);
      SplitExtend(a1, b, sep);
      var s1 := Split(a1, sep);
      if c == sep {
        SplitCons(c, a1, sep);
        SplitCons(c, a1 + b, sep);
        ExtendAfterSep(s1, Split(a1 + b, sep), Split(s1[|s1|-1] + b, sep));
      } else if |s1| > 1 {
        SplitCons(c, a1, sep);
        SplitCons(c, a1 + b, sep);
        ExtendInside(c, s1, Split(a1 + b, sep), Split(s1[|s1|-1] + b, sep));
      } else {
        ExtendSingle(c, a1, b, sep);
      }
    }
  }

  lemma ExtendSingle(c: Byte, a1: seq<Byte>, b: seq<Byte>, sep: Byte)
    requires c != sep && |Split(a1, sep)| == 1
    requires Split(a1 + b, sep) == Split(Split(a1, sep)[0] + b, sep)
    ensures var sa := Split([c] + a1, sep);
      Split([c] + a1 + b, sep) == sa[..|sa|-1] + Split(sa[|sa|-1] + b, sep)
  {
    var l := Split(a1, sep)[0];
    var sa := Split([c] + a1, sep);
    SplitCons(c, a1, sep);
    assert sa == [[c] + l];
    SameHead(c, a1 + b, l + b, sep);
    assert [c] + a1 + b == [c] + (a1 + b);
    assert [c] + l + b == [c] + (l + b);
  }

  /** Inputs that split alike still split alike after the same non-separator first byte. */
  lemma SameHead(c: Byte, t: seq<Byte>, u: seq<Byte>, sep: Byte)
    requires c != sep && Split(t, sep) == Split(u, sep)
    ensures Split([c] + t, sep) == Split([c] + u, sep)
  {
    SplitCons(c, t, sep);
    SplitCons(c, u, sep);
  }

  lemma ExtendAfterSep(s1: seq<seq<Byte>>, r: seq<seq<Byte>>, t: seq<seq<Byte>>)
    requires |s1| > 0 && r == s1[..|s1|-1] + t
    ensures var sa := [[]] + s1; [[]] + r == sa[..|sa|-1] + t
  {
    var sa: seq<seq<Byte>> := [[]] + s1;
    assert sa[..|sa|-1] == [[]] + s1[..|s1|-1];
  }

  lemma ExtendInside(c: Byte, s1: seq<seq<Byte>>, r: seq<seq<Byte>>, t: seq<seq<Byte>>)
    requires |s1| > 1 && r == s1[..|s1|-1] + t
    ensures var sa := [[c] + s1[0]] + s1[1..];
      |r| > 0 && [[c] + r[0]] + r[1..] == sa[..|sa|-1] + t
  {
    var sa := [[c] + s1[0]] + s1[1..];
    assert r[0] == s1[0];
    assert sa[..|sa|-1] == [[c] + s1[0]] + s1[1..|s1|-1];
    assert r[1..] == s1[1..|s1|-1] + t;
  }

  /** Splitting is the inverse of joining separator-free pieces. */
  lemma {:induction false} JoinSplit(ps: seq<seq<Byte>>, sep: Byte)
    requires |ps| > 0
    requires forall i :: 0 <= i < |ps| ==> sep !in ps[i]
    ensures Split(Join(ps, sep), sep) == ps
    decreases |ps|
  {
    if |ps| == 1 {
      SplitNoSep(ps[0], sep);
    } else {
      JoinSplit(ps[1..], sep);
      var tail := Join(ps[1..], sep);
      SplitThenSep(ps[0], sep);
      SplitExtend(ps[0] + [sep], tail, sep);
      assert [] + tail == tail;
      assert [ps[0], []][..1] == [ps[0]];
      assert ps == [ps[0]] + ps[1..];
    }
  }

  lemma {:induction false} NonEmptyAppend(a: seq<seq<Byte>>, b: seq<seq<Byte>>)
    ensures NonEmpty(a + b) == NonEmpty(a) + NonEmpty(b)
    decreases |b|
  {
    if |b| == 0 {
      assert a + b == a;
    } else {
      assert (a + b)[..|a + b|-1] == a + b[..|b|-1];
      NonEmptyAppend(a, b[..|b|-1]);
    }
  }

  /** A token survives exactly when it is not empty. */
  lemma {:induction false} NonEmptyMember(ts: seq<seq<Byte>>, t: seq<Byte>)
    ensures t in NonEmpty(ts) <==> t in ts && |t| > 0
    decreases |ts|
  {
    if |ts| > 0 {
      NonEmptyMember(ts[..|ts|-1], t);
      assert ts == ts[..|ts|-1] + [ts[|ts|-1]];
    }
  }

  /** The tokens of a split are separator-free, and so are the ones kept. */
  lemma NonEmptySepFree(ts: seq<seq<Byte>>, sep: Byte)
    requires forall i :: 0 <= i < |ts| ==> sep !in ts[i]
    ensures forall i :: 0 <= i < |NonEmpty(ts)| ==> |NonEmpty(ts)[i]| > 0 && sep !in NonEmpty(ts)[i]
  {
    var r := NonEmpty(ts);
    forall i | 0 <= i < |r|
      ensures |r[i]| > 0 && sep !in r[i]
    {
      NonEmptyMember(ts, r[i]);
    }
  }

  /** The names of a stream are not empty and hold no separator. */
  lemma NamesClean(s: seq<Byte>, sep: Byte)
    ensures var r := NonEmpty(Split(s, sep));
      forall i :: 0 <= i < |r| ==> |r[i]| > 0 && sep !in r[i]
  {
    SplitSepFree(s, sep);
    NonEmptySepFree(Split(s, sep), sep);
  }
}
